=== FILE: README.md ===
# Eaty-Turnip shooter: the simulation core in Dafny

The repository holds near-duplicate versions of a top-down browser shooter.
The player moves with the w/a/s/d keys and fires at the mouse. Waves of
enemies home in on the player. Each kill earns currency, which the shop
turns into upgrades. This project models the arithmetic and array rules of
two of these files as pure functions over immutable records, with the
proofs attached:

- **gameschool.js** is the single-file variant. Its pieces are the frame
  update `update`, the wave check and spawn (`checkWaveComplete`,
  `spawnEnemies`, `createEnemy`), the three `buy*Upgrade` handlers and the
  mouse-down fire gate. Modules `SchoolState`, `SchoolBullets`,
  `SchoolCombat`, `SchoolWaves`, `SchoolShop` and `SchoolUpdate` cover them.
- **game.js** is the multi-weapon variant. Its pieces are `spawnEnemies`
  (edge placement, type choice, count) and `checkCollisions` (weapon
  damage, sniper penetration, kill reward, contact damage, next-wave
  trigger). Modules `GameState`, `GameSpawn` and `GameCombat` cover them.

Four modules are shared by both variants:

- `Geometry`: the strict box-overlap test.
- `Seqs`: `splice(i, 1)`, `filter` and order-preserving sub-sequences.
- `ForEachSplice`: the `forEach` walk whose callback splices the element it
  visits.
- `Contact`: the enemy-versus-player contact pass, which both files write
  the same way.

Both files remove elements from an array inside a `forEach` over that same
array. JavaScript's `forEach` visits index `i` only while `i` is below the
array's current length, and it reads whatever element is at `i` at that
moment. The model walks an explicit index in exactly this way.

- After a splice at `i`, the next element shifts into `i`. The walk then
  moves on to `i + 1`, so the walk never visits the shifted element.
  `ForEachSplice.SweepOverAllHitsRemovesHalf` and
  `SchoolCombat.BulletOverPileKillsHalf` prove the consequence: a bullet
  lying over a pile of `n` enemies kills `(n + 1) / 2` of them.
- In game.js's bullet pass, the callback keeps its `bullet` after splicing
  that bullet out of the array. The removed bullet goes on damaging the
  enemies that follow. Each further non-piercing hit splices whatever bullet
  now sits at the old index. `GameCombat.Shot` records whether the held
  bullet is still in the array. `GameCombat.EnemyPassSplicesRun` states the
  effect for all inputs: a non-sniper bullet that makes `h` hits removes the
  `h` bullets from its own index on, whichever bullets those are.
  `GameCombat.RemovedBulletSplicesNeighbour` gives a concrete case, in which
  a bullet that touches nothing is removed.
- The enemy walk of game.js follows the same rule. When every enemy a bullet
  overlaps dies of its hit, `GameCombat.EnemyPassKillsAllStruck` equates it
  with the generic walk, and `GameCombat.EnemyPassOverPileKillsHalf` gives
  the `(n + 1) / 2` count. The outer bullet walk skips too:
  `GameCombat.BulletPassSkipsShifted` shows the bullet shifted into a spliced
  bullet's index is not visited.

Behaviours of the code worth knowing:

- The player is not clamped to the canvas. `SchoolUpdate.MovePlayer` moves
  the player freely.
- Not every overlapping enemy is hit in a frame, because of the skip
  described above.
- A non-piercing game.js bullet can take part in more than one hit in a
  frame, because of the kept reference.
- gameschool.js's wave check does not look at the game-over flag. It runs
  even in the frame in which the game ended. game.js does check the flag.
- In gameschool.js a hit always kills the enemy. Enemies there have no
  health.

JavaScript numbers are modelled as follows:

- Positions, sizes, velocities and game.js enemy health are exact `real`s.
- Hit points, score, currency, coins and times are unbounded `int`s.

## Model

| member | source | states |
|---|---|---|
| Geometry.OverlapsSymmetric | gameschool.js:81-86 | the overlap test gives the same answer whichever box is named first |
| Geometry.TouchingBoxesDoNotOverlap | gameschool.js:81-86 | boxes that only share an edge do not collide, because every inequality is strict |
| Geometry.OverlapsIffCommonPoint | gameschool.js:101-105 | for boxes of positive size, the four-inequality test holds exactly when some point lies strictly inside both boxes |
| Geometry.ScaleBelow | gameschool.js:42-43 | a draw in [0, 1) times a positive extent is a coordinate in [0, extent) |
| Seqs.SpliceOne | gameschool.js:87 | `splice(i, 1)` removes exactly the element at `i` and shifts the later ones down by one; an index past the end changes nothing |
| Seqs.SpliceOneMultiset | gameschool.js:112 | a splice removes one occurrence of the spliced element and nothing else |
| Seqs.SpliceOneSubsequence | gameschool.js:112 | after a splice the other elements keep their order |
| Seqs.DropRunElements | game.js:52 | repeated `splice(i, 1)` at one index removes the run of up to `c` elements from `i`, keeps the elements before it and moves the later ones down by the run's length |
| Seqs.DropRunStep | game.js:52 | one more splice at the run's start removes one more element of the run |
| Seqs.DropRunSubsequence | game.js:52 | the elements left after removing a run keep their order |
| Seqs.Filter | gameschool.js:65 | `filter` keeps exactly the elements satisfying the test, each as often as it occurred and in the original order |
| ForEachSplice.SweepFrom | gameschool.js:80-95 | the forEach-with-splice walk loses exactly as many elements as it reports removed, and introduces no new ones |
| ForEachSplice.Sweep | gameschool.js:80-95 | the same facts for the walk over the whole array |
| ForEachSplice.SweepFromRemovesIffMatch | gameschool.js:80-87 | the walk from index `k` removes something exactly when some element from `k` on satisfies the test |
| ForEachSplice.SweepRemovesIffMatch | gameschool.js:80-87 | the walk removes something exactly when some element of the array satisfies the test |
| ForEachSplice.SweepFromSubsequence | gameschool.js:80-95 | the elements the walk from `k` leaves keep their order |
| ForEachSplice.SweepSubsequence | gameschool.js:80-95 | the elements the walk leaves keep their order |
| ForEachSplice.SweepFromKeepsMisses | gameschool.js:80-87 | an element failing the test keeps its number of occurrences in the walk from `k` |
| ForEachSplice.SweepKeepsMisses | gameschool.js:80-87 | an element failing the test keeps its number of occurrences |
| ForEachSplice.SweepOverAllHitsRemovesHalf | gameschool.js:80-87 | when every element from `k` on satisfies the test, only ceil((n - k) / 2) are removed, which is the skip |
| Contact.ContactFrom | gameschool.js:100-118 | each contact costs exactly `damage` hit points and removes its enemy as the walk does; with non-negative damage the game is over exactly when it already was or a contact left the hit points at or below zero |
| Contact.ContactPass | game.js:64-76 | the contact pass removes an enemy per contact and keeps the rest in order; there is a contact exactly when some enemy overlaps the player; it costs `damage` per contact; game over as above |
| Contact.ContactPassKeepsMisses | gameschool.js:100-105 | an enemy that does not touch the player survives the pass as often as it occurred |
| SchoolBullets.MoveBullets | gameschool.js:60-63 | every bullet moves by exactly its own velocity; velocity, mark and order are unchanged |
| SchoolBullets.CullBullets | gameschool.js:65 | after the cull every bullet satisfies 0 < x < width and 0 < y < height, no in-bounds bullet is dropped, and the survivors keep their order |
| SchoolBullets.Fire | gameschool.js:217-229 | a click adds one bullet, centred on the player, unmarked and moving by `bulletSpeed` times the aim's cosine and sine, and records `now` exactly when more than FIRE_RATE ms have passed since the last shot; otherwise nothing changes |
| SchoolBullets.ClicksWithinCooldownFireOnce | gameschool.js:219 | two clicks at most FIRE_RATE ms apart add at most one bullet |
| SchoolCombat.TallyBefore | gameschool.js:79-95 | when a bullet's turn comes, each enemy gone so far paid exactly 10 score and 5 currency, and no enemy appeared |
| SchoolCombat.Mark | gameschool.js:87-88 | a bullet's turn marks it exactly when it was marked already or overlaps an enemy still present at its turn; position and velocity are untouched |
| SchoolCombat.ResolveHits | gameschool.js:79-95 | the bullet pass only sets marks; a bullet is marked exactly when it overlapped an enemy present at its turn; each enemy removed paid exactly 10 score and 5 currency; the surviving enemies keep their order |
| SchoolCombat.TallyShrinks | gameschool.js:80-87 | an enemy present at a later bullet's turn was present at every earlier one |
| SchoolCombat.TallySubsequence | gameschool.js:79-95 | the enemies left at any turn keep their order from the start of the frame |
| SchoolCombat.ResolveHitsMarksOnlyOnHit | gameschool.js:81-88 | a bullet is newly marked only if it overlaps some enemy of the frame |
| SchoolCombat.ResolveHitsMarksSurvivorHits | gameschool.js:81-88 | a bullet overlapping an enemy that survives the bullet pass is marked, since that enemy was present at the bullet's turn |
| SchoolCombat.TallyKeepsUnhit | gameschool.js:81-87 | an enemy that no bullet overlaps survives the bullet pass as often as it occurred |
| SchoolCombat.BulletOverPileKillsHalf | gameschool.js:80-87 | a bullet overlapping all n enemies kills only (n + 1) / 2 of them |
| SchoolCombat.DropMarked | gameschool.js:97 | the marked bullets go and exactly the unmarked ones stay, in order |
| SchoolCombat.PlayerContacts | gameschool.js:100-118 | each contact costs DAMAGE_AMOUNT hit points and removes the enemy; there is a contact exactly when an enemy overlaps the player; `endGame` sets the game-over flag exactly when a contact left the hit points at or below zero |
| SchoolWaves.CreateEnemy | gameschool.js:40-48 | with draws in [0, 1), a new enemy's corner lies on the canvas |
| SchoolWaves.SpawnEnemies | gameschool.js:151-157 | the enemy array is replaced by exactly 5 + 3 * wave enemies, the i-th made from the i-th draws |
| SchoolWaves.LowerSpawnRate | gameschool.js:163 | the new rate is exactly max(1000, rate - 100): 100 ms lower while that stays at or above the floor of 1000 ms, the floor otherwise; it is never higher than before unless it was below the floor |
| SchoolWaves.CheckWaveComplete | gameschool.js:159-165 | the wave completes exactly when no enemy is left; completion adds 1 to the wave, spawns that wave's full batch and sets the rate to max(1000, rate - 100); nothing else changes |
| SchoolWaves.SpawnRateAfterWaves | gameschool.js:163 | starting at or above 1000 ms, after n waves the rate is rate - 100n, or 1000 once that falls below the floor |
| SchoolShop.Buy | gameschool.js:176-199 | a purchase succeeds exactly when currency covers the cost (50, 20 or 30) and then deducts exactly the cost; health becomes min(hp + 50, PLAYER_MAX_HP); the speed upgrades add 2; a refused purchase changes nothing; only the bought stat and the currency change |
| SchoolShop.BuyAllKeepsBounds | gameschool.js:176-199 | over any run of purchases currency stays between 0 and its starting value, and hit points stay within PLAYER_MAX_HP |
| SchoolUpdate.MovePlayer | gameschool.js:53-57 | each held key moves the player by the speed in its own direction, with no clamping |
| SchoolUpdate.OppositeKeysCancel | gameschool.js:54-57 | holding both keys of an axis, or neither, leaves that coordinate where it was |
| SchoolUpdate.HomeAll | gameschool.js:68-76 | every enemy takes its homing step towards the moved player, in order |
| SchoolUpdate.Shootout | gameschool.js:79-97 | after the bullet pass and the drop, every bullet is still on the canvas and unmarked; each enemy killed paid 10 score and 5 currency |
| SchoolUpdate.Combat | gameschool.js:53-118 | within a frame, bullets end on the canvas and unmarked; kills and contacts each remove one enemy; kills pay 10 score and 5 currency and contacts cost DAMAGE_AMOUNT; the game ends exactly on a contact that leaves the hit points at or below zero |
| SchoolUpdate.Update | gameschool.js:50-121 | a frame of a finished game changes nothing; otherwise the bullet, reward and damage facts above hold and the wave advances by at most one, only with a full new batch; cooldown and speeds are kept |
| SchoolUpdate.BulletsStayInBounds | gameschool.js:88 | setting marks does not move bullets, so the culled bullets stay on the canvas |
| SchoolUpdate.InitialSound | gameschool.js:18-38 | the starting state has non-negative currency and score, full hit points and a spawn rate at or above the floor |
| SchoolUpdate.ApplyKeepsSound | gameschool.js:50-229 | a frame, a click or a purchase keeps currency and score non-negative, hit points within PLAYER_MAX_HP and the spawn rate at or above 1000; the wave never decreases |
| SchoolUpdate.RunKeepsSound | gameschool.js:50-229 | the same holds over any run of frames, clicks and purchases |
| SchoolUpdate.FramesAfterGameOverChangeNothing | gameschool.js:51 | once the game is over, any number of frames leave the state unchanged |
| GameSpawn.EdgeOf | game.js:11 | `Math.floor(Math.random() * 4)` is an edge number 0 to 3 |
| GameSpawn.Place | game.js:13-18 | the spawn corner lies on the line just outside the chosen border, y = -ENEMY_SIZE, x = width, y = height or x = -ENEMY_SIZE, so an ENEMY_SIZE square there never overlaps the canvas |
| GameSpawn.PlaceWithinSpan | game.js:14-17 | along its border the spawn corner lies within the canvas span |
| GameSpawn.ChooseKind | game.js:21-22 | exactly one type is chosen: maniac when the first draw is below 0.1, shooter only when not maniac and the second draw is below 0.5, rammer otherwise |
| GameSpawn.SpawnOne | game.js:24-28 | a new enemy is the chosen template with only its position replaced by the spawn corner |
| GameSpawn.SpawnedOffCanvas | game.js:13-28 | an enemy whose template is no larger than ENEMY_SIZE spawns entirely off the canvas; on the top edge it overlaps the canvas exactly when its template is taller than ENEMY_SIZE |
| GameSpawn.SpawnEnemies | game.js:9-31 | exactly ENEMY_SPAWN_RATE * waveNumber enemies are appended, existing enemies are left in place, and the i-th new enemy comes from the i-th draws |
| GameCombat.Strike | game.js:43-58 | a hit lowers the enemy's health by exactly 5 (sniper), 3 (shotgun) or 2 (any other weapon); the enemy is removed with +10 coins exactly when its health is then at or below zero; a sniper bullet with penetration > 1 survives with one penetration fewer; any other hit splices the bullet index |
| GameCombat.EnemyPass | game.js:37-60 | for one bullet: without a hit nothing changes; the held bullet keeps its position, only loses penetration, and stays in the array exactly while none of its hits spliced; every non-sniper hit splices; no bullet or enemy is added; each removed enemy paid 10 coins; enemies with health left keep some |
| GameCombat.EnemyPassBullets | game.js:49-53 | while the held bullet is in the array only its penetration changed; once it is out, the bullet array is the original with the run of `cuts` bullets from the bullet's index removed, so bullets below that index are untouched |
| GameCombat.EnemyPassSplicesRun | game.js:36-53 | the kept `bullet` reference for all inputs: a non-sniper bullet with `h` hits removes the `h` bullets from its index on, or as many as there are, whichever bullets those are |
| GameCombat.EnemyPassKeepsBelow | game.js:52 | the callbacks for one bullet leave every bullet below its index in place |
| GameCombat.EnemyPassHurts | game.js:37-58 | the enemies left are original enemies, some removed and some with lowered health, in their original order; no more enemies are removed than hits were made, and there are no more hits than enemies from the start index on |
| GameCombat.EnemyPassHitsIffOverlap | game.js:37-41 | a bullet makes a hit exactly when it overlaps some enemy from the start index on |
| GameCombat.EnemyPassKeepsEnemiesBelow | game.js:37-58 | the callbacks for one bullet from enemy `ei` on leave the enemies below `ei` in place |
| GameCombat.EnemyPassSkipsMisses | game.js:37-41 | enemies the bullet does not overlap are passed over without effect |
| GameCombat.EnemyPassHitAt | game.js:43-58 | a bullet overlapping the enemy where the walk starts makes a hit; that enemy either stays with exactly 2, 3 or 5 (by weapon) less health, or is removed and at least 10 coins are paid |
| GameCombat.EnemyPassFirstHit | game.js:37-58 | the first enemy the bullet overlaps takes its hit: the enemies before it are untouched, and it either keeps its index with exactly the weapon's damage less health, or is removed with at least 10 coins paid |
| GameCombat.EnemyPassHitChangesEnemies | game.js:37-58 | a bullet overlapping some enemy ahead always leaves the enemy array different from before |
| GameCombat.EnemyPassKillsAllStruck | game.js:37-58 | when every enemy the bullet overlaps dies of its hit, the enemies left and the hit count are exactly those of the generic forEach-with-splice walk: each kill splices the enemy and the enemy shifted into its index is not visited |
| GameCombat.EnemyPassOverPileKillsHalf | game.js:37-58 | a bullet over a pile of `n` enemies that each die of one hit makes `(n + 1) / 2` hits and removes `(n + 1) / 2` enemies, not `n` |
| GameCombat.EnemyPassHurtsAllStruck | game.js:37-58 | when every enemy the bullet overlaps survives its hit, none is removed and no coins are paid; every overlapped enemy from the start index on keeps its index with exactly the weapon's damage less health, the others are unchanged, and the hits equal the number of overlapped enemies, even after the bullet was spliced out |
| GameCombat.SniperCuts | game.js:49-53 | a sniper bullet with penetration `q` (at least 1) passes through its first `q - 1` hits and splices on every later hit: with `h` hits it splices `h - (q - 1)` times when `h >= q` and never otherwise |
| GameState.WeakenedStaysChanged | game.js:48-55 | health only goes down and enemies are only removed, so once the enemies differ from the original ones, further damage never restores them |
| GameCombat.StrikeKeepsOthers | game.js:48-55 | a hit leaves every enemy with a box other than the struck one's as often as it occurred |
| GameCombat.EnemyPassKeepsUnhit | game.js:37-58 | an enemy the bullet does not overlap keeps its number of occurrences through the bullet's callbacks |
| GameCombat.BulletPass | game.js:36-61 | over all bullets from `bi` on: bullets below `bi` are untouched and none is added; without the sniper the bullets left are a sub-sequence of the original ones; the enemies left are original ones, some removed and some hurt, in order, and they differ from the original ones exactly when some bullet from `bi` on overlaps some enemy; each enemy removed paid exactly 10 coins; enemies with health left keep some |
| GameCombat.BulletPassKeepsUnhit | game.js:36-58 | an enemy that no bullet overlaps survives the bullet pass as often as it occurred, whatever the kept references splice |
| GameCombat.BulletPassKeepsMissPrefix | game.js:36-53 | a bullet stays at its index when neither it nor any earlier bullet overlaps an enemy |
| GameCombat.BulletPassSkipsShifted | game.js:36-53 | a non-sniper bullet at `bi` that makes `h >= 1` hits splices `h` bullets, and the bullet shifted from `bi + h` into `bi` is not visited by the outer forEach: it is still at `bi` after the whole pass |
| GameCombat.CheckCollisions | game.js:35-81 | without the sniper the bullets left keep their order; the enemies left are original ones, some hurt, in order, and differ from the original ones whenever some bullet overlaps some enemy; kills and contacts each remove one enemy; each kill pays 10 coins and each contact costs DAMAGE_AMOUNT; the game ends exactly on a contact that leaves the hit points at or below zero; `nextWave` runs exactly when no enemy is left and the game is not over |
| GameCombat.CheckCollisionsKillsNeedHits | game.js:36-58 | nothing is shot down unless some bullet overlaps some enemy |
| GameCombat.CheckCollisionsKeepsUnhit | game.js:35-76 | an enemy that no bullet overlaps and that does not touch the player is still there afterwards, as often as it occurred |
| GameCombat.CheckCollisionsContacts | game.js:64-76 | an enemy that touches the player and that no bullet overlaps always makes contact, and every contact was made by an enemy whose box touches the player |
| GameCombat.EnemyPassMisses | game.js:38-41 | a bullet that overlaps none of the enemies ahead of it changes nothing |
| GameCombat.BulletPassMisses | game.js:36-41 | when no bullet overlaps any enemy, the bullet pass changes nothing |
| GameCombat.SniperStaysInArray | game.js:49-50 | a sniper bullet with more penetration than enemies ahead is never spliced |
| GameCombat.FirstHitSplices | game.js:49-53 | a bullet of a weapon other than the sniper is spliced out by its first hit |
| GameCombat.RemovedBulletSplicesNeighbour | game.js:36-61 | concretely, a pistol bullet over two sturdy enemies removes itself and then the next bullet, which touches no enemy |

## Left out

- Drawing, the frame loop and `requestAnimationFrame` (gameschool.js:123-149): these are rendering and host scheduling. `SchoolUpdate.Run` takes the sequence of events as its input.
- HUD writes, `showShop`/`hideShop`, the display toggles of `endGame`, and the key and mouse listeners: these are DOM plumbing. Held keys are a `Keys` record, the click time `now` is a parameter, and the shot direction is an `Aim` record.
- Homing movement (gameschool.js:68-76): it uses a square root and float division, and it divides by zero when the distance is 0. `SchoolUpdate.HomeAll` takes the per-enemy step as a function parameter.
- `Math.random`, `Math.atan2`, `Math.cos` and `Math.sin`: their values are parameters (`SchoolWaves.Draw`, `GameSpawn.Draw`, `SchoolBullets.Aim`). `GameSpawn.SpawnOne` and `GameSpawn.SpawnEnemies` require each draw to lie in [0, 1), as `Math.random` guarantees. Outside that range game.js would leave `x` and `y` undefined.
- The maniac constants (game.js:2-6): the modelled code never reads them.
- `updateHUD`, `nextWave`, `endGame` and the enemy templates of game.js: they are not defined in the file. `endGame` is modelled as setting the game-over flag, as gameschool.js's does. `nextWave` is the `nextWave` flag of `GameCombat.Collisions`. The templates are a parameter.
- Template fields other than position, size and health, and enemy and bullet colours: the modelled code does not read them. The same holds for `player.speed` and BASE_ENEMY_SPEED, which is used only by the homing step. Bullet velocity in game.js is not modelled either, because `checkCollisions` never moves bullets.
- `GameSpawn.SpawnEnemies` takes ENEMY_SPAWN_RATE and waveNumber as non-negative integers. A fractional product, for which JavaScript would run the loop up to the next integer, is not modelled.
- `Contact.ContactPass`, `Contact.ContactFrom` and `GameCombat.CheckCollisions`: the game-over equivalence is stated only for non-negative DAMAGE_AMOUNT. game.js does not define the constant, and a negative value would heal the player.
- `SchoolUpdate.Update`: the reward and damage facts are stated as "some number of kills, at most one per enemy, paid 10 score and 5 currency each" and "some number of contacts cost DAMAGE_AMOUNT each". The exact counts are stated by `SchoolUpdate.Combat`.
- JavaScript's double rounding: positions, sizes and health are exact reals, so the rounding of `x + dx`, `bullet.x + BULLET_SIZE` or `health - damage` is not modelled. `Geometry.TouchingBoxesDoNotOverlap`, the cull bounds of `SchoolBullets.CullBullets` and the health facts of `GameCombat` hold for exact arithmetic only.
- Object identity: entities are values. An array holding the same bullet object twice, which the code never creates, is not modelled.

=== FILE: contact.dfy ===
/**
 The enemy-vs-player contact pass both variants of the game run after the
 bullet pass: every enemy visited while its box overlaps the player's costs
 the player a fixed amount of hit points and is spliced out of the enemy
 array, and the game ends as soon as the hit points are at or below zero. The
 walk is the forEach-with-splice walk, so an enemy that shifts into a removed
 index is not visited in the same frame.
 */
module Contact {
  import opened Geometry
  import opened Seqs
  import opened ForEachSplice

  /** What the pass leaves behind: the remaining enemies, how many touched the
      player, the player's hit points and the game-over flag. */
  datatype Outcome<E> = Outcome(enemies: seq<E>, contacts: nat, hp: int, over: bool)

  /** The contact test against a fixed player box. */
  function Touching<E>(player: Box, box: E -> Box): E -> bool
  {
    e => Overlaps(player, box(e))
  }

  /** The pass from enemy index `k` on, one callback at a time: subtract the
      damage, splice the enemy out, end the game if the hit points dropped to
      zero or below. */
  function ContactFrom<E(==)>(player: Box, es: seq<E>, box: E -> Box, damage: int,
                              hp: int, over: bool, k: nat): (r: Outcome<E>)
    ensures (r.enemies, r.contacts) == SweepFrom(es, Touching(player, box), k)
    ensures r.hp == hp - damage * r.contacts
    ensures damage >= 0 ==> (r.over <==> over || (r.contacts > 0 && r.hp <= 0))
    decreases |es| - k
  {
    if k >= |es| then
      Outcome(es, 0, hp, over)
    else if Overlaps(player, box(es[k])) then
      assert Touching(player, box)(es[k]);
      var hp' := hp - damage;
      var rest := ContactFrom(player, SpliceOne(es, k), box, damage, hp', over || hp' <= 0, k + 1);
      MulStep(damage, rest.contacts);
      Outcome(rest.enemies, rest.contacts + 1, rest.hp, rest.over)
    else
      assert !Touching(player, box)(es[k]);
      ContactFrom(player, es, box, damage, hp, over, k + 1)
  }

  lemma MulStep(d: int, n: nat)
    ensures d * (n + 1) == d * n + d
    ensures d >= 0 ==> d * n >= 0
  {}

  /** The whole pass. The enemies that remain are those of the contact walk;
      every contact costs exactly `damage`; with non-negative damage the game
      is over afterwards exactly when it was before or some contact happened
      and the hit points ended at or below zero. */
  function ContactPass<E(==)>(player: Box, es: seq<E>, box: E -> Box, damage: int,
                              hp: int, over: bool): (r: Outcome<E>)
    ensures (r.enemies, r.contacts) == Sweep(es, Touching(player, box))
    ensures |r.enemies| + r.contacts == |es|
    ensures r.hp == hp - damage * r.contacts
    ensures r.contacts > 0 <==> exists e :: e in es && Overlaps(player, box(e))
    ensures forall e :: e in r.enemies ==> e in es
    ensures IsSubsequence(r.enemies, es)
    ensures damage >= 0 ==> (r.over <==> over || (r.contacts > 0 && r.hp <= 0))
  {
    SweepSubsequence(es, Touching(player, box));
    SweepRemovesIffMatch(es, Touching(player, box));
    ContactFrom(player, es, box, damage, hp, over, 0)
  }

  /** An enemy that does not touch the player survives the pass, as often as
      it occurred. */
  lemma ContactPassKeepsMisses<E>(player: Box, es: seq<E>, box: E -> Box, damage: int,
                                  hp: int, over: bool, e: E)
    requires !Overlaps(player, box(e))
    ensures multiset(ContactPass(player, es, box, damage, hp, over).enemies)[e] == multiset(es)[e]
  {
    SweepKeepsMisses(es, Touching(player, box), e);
  }
}

=== FILE: foreach_splice.dfy ===
/**
 The array walk the game uses for removals: `arr.forEach((x, i) => { if (p(x))
 arr.splice(i, 1); })`.

 JavaScript's forEach fixes the number of steps at the start but visits index
 `i` only while `i` is still an index of the (shrinking) array, and reads the
 element found at `i` at that moment. Because the callback only ever removes,
 "`i` is below the current length" is the bound that stops the walk. After a
 removal at `i` the next element shifts into `i`, and the walk moves on to
 `i + 1`: the shifted element is never visited.
 */
module ForEachSplice {
  import opened Seqs

  /** The walk from index `k` on: the array that remains and the number of
      elements removed. */
  function SweepFrom<T(==)>(s: seq<T>, p: T -> bool, k: nat): (r: (seq<T>, nat))
    ensures |r.0| + r.1 == |s|
    ensures forall x :: x in r.0 ==> x in s
    decreases |s| - k
  {
    if k >= |s| then
      (s, 0)
    else if p(s[k]) then
      var t := SpliceOne(s, k);
      var rest := SweepFrom(t, p, k + 1);
      assert forall x :: x in t ==> x in s;
      (rest.0, rest.1 + 1)
    else
      SweepFrom(s, p, k + 1)
  }

  /** The walk over the whole array. */
  function Sweep<T(==)>(s: seq<T>, p: T -> bool): (r: (seq<T>, nat))
    ensures |r.0| + r.1 == |s|
    ensures forall x :: x in r.0 ==> x in s
  {
    SweepFrom(s, p, 0)
  }

  /** The walk removes something exactly when some element from `k` on
      satisfies `p`: the first such element is reached with the array still
      unchanged. */
  lemma {:induction false} SweepFromRemovesIffMatch<T>(s: seq<T>, p: T -> bool, k: nat)
    ensures SweepFrom(s, p, k).1 > 0 <==> exists j :: k <= j < |s| && p(s[j])
    decreases |s| - k
  {
    if k < |s| && !p(s[k]) {
      SweepFromRemovesIffMatch(s, p, k + 1);
      if j :| k <= j < |s| && p(s[j]) {
        assert j != k;
      }
    }
  }

  lemma SweepRemovesIffMatch<T>(s: seq<T>, p: T -> bool)
    ensures Sweep(s, p).1 > 0 <==> exists x :: x in s && p(x)
  {
    SweepFromRemovesIffMatch(s, p, 0);
    if x :| x in s && p(x) {
      var j :| 0 <= j < |s| && s[j] == x;
      assert p(s[j]);
    }
  }

  /** The elements that remain keep their relative order. */
  lemma {:induction false} SweepFromSubsequence<T>(s: seq<T>, p: T -> bool, k: nat)
    ensures IsSubsequence(SweepFrom(s, p, k).0, s)
    decreases |s| - k
  {
    if k >= |s| {
      SubsequenceReflexive(s);
    } else if p(s[k]) {
      var t := SpliceOne(s, k);
      SweepFromSubsequence(t, p, k + 1);
      SpliceOneSubsequence(s, k);
      SubsequenceTransitive(SweepFrom(t, p, k + 1).0, t, s);
    } else {
      SweepFromSubsequence(s, p, k + 1);
    }
  }

  lemma SweepSubsequence<T>(s: seq<T>, p: T -> bool)
    ensures IsSubsequence(Sweep(s, p).0, s)
  {
    SweepFromSubsequence(s, p, 0);
  }

  /** Only elements satisfying `p` are removed: every other element keeps
      its number of occurrences. */
  lemma {:induction false} SweepFromKeepsMisses<T>(s: seq<T>, p: T -> bool, k: nat, x: T)
    requires !p(x)
    ensures multiset(SweepFrom(s, p, k).0)[x] == multiset(s)[x]
    decreases |s| - k
  {
    if k < |s| && p(s[k]) {
      SpliceOneMultiset(s, k);
      SweepFromKeepsMisses(SpliceOne(s, k), p, k + 1, x);
    } else if k < |s| {
      SweepFromKeepsMisses(s, p, k + 1, x);
    }
  }

  lemma SweepKeepsMisses<T>(s: seq<T>, p: T -> bool, x: T)
    requires !p(x)
    ensures multiset(Sweep(s, p).0)[x] == multiset(s)[x]
  {
    SweepFromKeepsMisses(s, p, 0, x);
  }

  /** The skip: when every element from `k` on satisfies `p`, the walk removes
      only every other one, ceil((|s| - k) / 2) of them, and the rest stay
      although they satisfy `p`. */
  lemma {:induction false} SweepOverAllHitsRemovesHalf<T>(s: seq<T>, p: T -> bool, k: nat)
    requires k <= |s|
    requires forall j :: k <= j < |s| ==> p(s[j])
    ensures SweepFrom(s, p, k).1 == (|s| - k + 1) / 2
    decreases |s| - k
  {
    if k < |s| {
      var t := SpliceOne(s, k);
      if k + 1 <= |t| {
        assert forall j :: k + 1 <= j < |t| ==> t[j] == s[j + 1];
        SweepOverAllHitsRemovesHalf(t, p, k + 1);
      }
    }
  }
}

=== FILE: game_combat.dfy ===
/**
 Collision resolution of game.js (`checkCollisions`): every bullet against
 every enemy with weapon-dependent damage, then every enemy against the
 player, then the next-wave trigger.

 Both passes are forEach walks whose callbacks splice, so an element that
 shifts into a spliced index is skipped. In the bullet pass the callback also
 keeps using the `bullet` it was given after splicing it out of the bullet
 array: the removed bullet goes on damaging the enemies that follow, and each
 further hit splices whatever bullet has moved into its index.
 */
module GameCombat {
  import opened Geometry
  import opened Seqs
  import Contact
  import ForEachSplice
  import opened GameState

  /** Damage per hit for the weapon named `weapon`. */
  function Damage(weapon: string): real
  {
    if weapon == "sniper" then 5.0
    else if weapon == "shotgun" then 3.0
    else 2.0
  }

  /** A hit lets the bullet through, one penetration fewer, only for a sniper
      bullet with more than one penetration left. */
  predicate Pierces(weapon: string, b: Bullet)
  {
    weapon == "sniper" && b.penetration > 1
  }

  /** The arrays and coin count the bullet pass works on. */
  datatype Pass = Pass(bullets: seq<Bullet>, enemies: seq<Enemy>, coins: int)

  /** The `bullet` a callback holds, and whether it is still the element at
      its index of the bullet array (`attached`) or has been spliced out. */
  datatype Shot = Shot(bullet: Bullet, attached: bool)

  /** An attached shot is the bullet at index `bi`, so writes to it are
      writes to the array. */
  predicate Tracks(p: Pass, bi: nat, shot: Shot)
  {
    shot.attached ==> bi < |p.bullets| && p.bullets[bi] == shot.bullet
  }

  /** The end of a callback run for one bullet: the arrays, the shot the
      callback holds, how many hits it made and how many of them spliced the
      bullet array. */
  datatype Turn = Turn(pass: Pass, shot: Shot, hits: nat, cuts: nat)

  /** One hit of the shot on enemy `ei`. The enemy loses exactly
      Damage(weapon) health; it is spliced out and pays 10 coins exactly when
      its health is then at or below zero. A piercing shot loses one
      penetration and stays where it is, in the array too while attached;
      any other hit splices index `bi` of the bullet array, which removes the
      shot itself if it was attached and otherwise whatever bullet sits
      there now. */
  function Strike(p: Pass, bi: nat, ei: nat, shot: Shot, weapon: string): (r: Turn)
    requires ei < |p.enemies|
    requires Tracks(p, bi, shot)
    ensures Tracks(r.pass, bi, r.shot)
    ensures r.hits == 1
    ensures var hurt := p.enemies[ei].(health := p.enemies[ei].health - Damage(weapon));
            if hurt.health <= 0.0 then
              r.pass.enemies == SpliceOne(p.enemies, ei) && r.pass.coins == p.coins + 10
            else
              r.pass.enemies == p.enemies[ei := hurt] && r.pass.coins == p.coins
    ensures Weakened(r.pass.enemies, p.enemies)
    ensures Pierces(weapon, shot.bullet) ==>
              && r.shot == Shot(shot.bullet.(penetration := shot.bullet.penetration - 1), shot.attached)
              && r.cuts == 0
              && r.pass.bullets == if shot.attached then p.bullets[bi := r.shot.bullet] else p.bullets
    ensures !Pierces(weapon, shot.bullet) ==>
              && r.shot == shot.(attached := false)
              && r.cuts == 1
              && r.pass.bullets == SpliceOne(p.bullets, bi)
  {
    var e := p.enemies[ei];
    var hurt := e.(health := e.health - Damage(weapon));
    var b := shot.bullet.(penetration := shot.bullet.penetration - 1);
    var after: (seq<Bullet>, Shot, nat) :=
      if !Pierces(weapon, shot.bullet) then (SpliceOne(p.bullets, bi), shot.(attached := false), 1)
      else if shot.attached then (p.bullets[bi := b], Shot(b, true), 0)
      else (p.bullets, Shot(b, false), 0);
    if hurt.health <= 0.0 then
      SpliceOneSubsequence(p.enemies, ei);
      SubsequenceWeakened(SpliceOne(p.enemies, ei), p.enemies);
      Turn(Pass(after.0, SpliceOne(p.enemies, ei), p.coins + 10), after.1, 1, after.2)
    else
      WeakenedUpdate(p.enemies, ei, hurt);
      Turn(Pass(after.0, p.enemies[ei := hurt], p.coins), after.1, 1, after.2)
  }

  /** The inner forEach over the enemies from index `ei` on, for the bullet
      at index `bi`. Each enemy removed paid 10 coins, and enemies that had
      health left still have some. The shot keeps its position, loses
      penetration only, and stays in the array exactly while none of its
      hits spliced; without the sniper every hit splices. */
  function EnemyPass(p: Pass, bi: nat, shot: Shot, weapon: string, cfg: Config, ei: nat): (r: Turn)
    requires Tracks(p, bi, shot)
    ensures Tracks(r.pass, bi, r.shot)
    ensures r.hits == 0 ==> r == Turn(p, shot, 0, 0)
    ensures r.shot.attached <==> shot.attached && r.cuts == 0
    ensures r.shot.bullet == shot.bullet.(penetration := r.shot.bullet.penetration)
    ensures r.shot.bullet.penetration <= shot.bullet.penetration
    ensures r.cuts <= r.hits
    ensures weapon != "sniper" ==> r.cuts == r.hits
    ensures |r.pass.bullets| <= |p.bullets|
    ensures |r.pass.enemies| <= |p.enemies|
    ensures r.pass.coins == p.coins + 10 * (|p.enemies| - |r.pass.enemies|)
    ensures Alive(p.enemies) ==> Alive(r.pass.enemies)
    decreases |p.enemies| - ei
  {
    if ei >= |p.enemies| then
      Turn(p, shot, 0, 0)
    else if Overlaps(BulletBox(shot.bullet, cfg), EnemyBox(p.enemies[ei])) then
      var t := Strike(p, bi, ei, shot, weapon);
      var rest := EnemyPass(t.pass, bi, t.shot, weapon, cfg, ei + 1);
      Turn(rest.pass, rest.shot, rest.hits + 1, rest.cuts + t.cuts)
    else
      EnemyPass(p, bi, shot, weapon, cfg, ei + 1)
  }

  /** The bullets one bullet's callbacks leave. While the shot is attached
      only its own penetration changed; once it is out the bullet array is
      the original one with the run of `cuts` bullets from `bi` on removed,
      so bullets below `bi` are untouched. */
  lemma {:induction false} EnemyPassBullets(p: Pass, bi: nat, shot: Shot, weapon: string, cfg: Config, ei: nat)
    requires Tracks(p, bi, shot)
    ensures var r := EnemyPass(p, bi, shot, weapon, cfg, ei);
            && (r.shot.attached ==> r.pass.bullets == p.bullets[bi := r.shot.bullet])
            && (!r.shot.attached ==> r.pass.bullets == DropRun(p.bullets, bi, r.cuts))
    decreases |p.enemies| - ei
  {
    if ei >= |p.enemies| {
      assert shot.attached ==> p.bullets[bi := shot.bullet] == p.bullets;
    } else if Overlaps(BulletBox(shot.bullet, cfg), EnemyBox(p.enemies[ei])) {
      var t := Strike(p, bi, ei, shot, weapon);
      var rest := EnemyPass(t.pass, bi, t.shot, weapon, cfg, ei + 1);
      EnemyPassBullets(t.pass, bi, t.shot, weapon, cfg, ei + 1);
      var r := EnemyPass(p, bi, shot, weapon, cfg, ei);
      assert r == Turn(rest.pass, rest.shot, rest.hits + 1, rest.cuts + t.cuts);
      BulletsAfterStrike(p.bullets, bi, Pierces(weapon, shot.bullet), shot.attached, t.pass.bullets,
                         t.shot, t.cuts, rest.pass.bullets, rest.shot, rest.cuts, r.cuts);
      assert r.pass.bullets == rest.pass.bullets && r.shot == rest.shot;
    } else {
      EnemyPassBullets(p, bi, shot, weapon, cfg, ei + 1);
    }
  }

  /** The induction step of EnemyPassBullets on plain values: the bullets a
      strike leaves (`ts`, the shot `t` and `tc` cuts) followed by those the
      rest of the walk leaves (`rs`, `r`, `rc`). A pierce while attached
      only rewrote index `bi`, which either stays the held bullet or is
      removed by the first later cut; a pierce while detached left the array
      alone; any other strike spliced `bi`, one more cut of the run. */
  lemma BulletsAfterStrike(bs: seq<Bullet>, bi: nat, pierced: bool, attached: bool,
                           ts: seq<Bullet>, t: Shot, tc: nat, rs: seq<Bullet>, r: Shot, rc: nat,
                           total: nat)
    requires pierced ==> tc == 0 && t.attached == attached &&
                         (attached ==> bi < |bs| && ts == bs[bi := t.bullet]) && (!attached ==> ts == bs)
    requires !pierced ==> tc == 1 && !t.attached && ts == SpliceOne(bs, bi)
    requires r.attached <==> t.attached && rc == 0
    requires r.attached ==> bi < |ts| && rs == ts[bi := r.bullet]
    requires !r.attached ==> rs == DropRun(ts, bi, rc)
    requires total == rc + tc
    ensures r.attached ==> bi < |bs| && rs == bs[bi := r.bullet]
    ensures !r.attached ==> rs == DropRun(bs, bi, total)
  {
    if r.attached {
      assert bs[bi := t.bullet][bi := r.bullet] == bs[bi := r.bullet];
    } else if pierced && attached {
      DropRunUpdate(bs, bi, t.bullet, rc);
    } else if !pierced {
      assert DropRun(bs, bi, rc + 1) == DropRun(SpliceOne(bs, bi), bi, rc);
    }
  }

  /** The kept `bullet` reference, for all inputs: for a weapon other than
      the sniper every hit splices index `bi`, so `h` hits remove the `h`
      bullets from `bi` on (or as many as there are), whichever bullets
      those are. */
  lemma EnemyPassSplicesRun(p: Pass, bi: nat, shot: Shot, weapon: string, cfg: Config, ei: nat)
    requires Tracks(p, bi, shot)
    requires weapon != "sniper"
    ensures var r := EnemyPass(p, bi, shot, weapon, cfg, ei);
            r.pass.bullets == DropRun(p.bullets, bi, r.hits)
  {
    EnemyPassBullets(p, bi, shot, weapon, cfg, ei);
  }

  /** The callbacks for the bullet at `bi` leave the bullets below it where
      they were. */
  lemma EnemyPassKeepsBelow(p: Pass, bi: nat, shot: Shot, weapon: string, cfg: Config, ei: nat)
    requires Tracks(p, bi, shot)
    ensures var r := EnemyPass(p, bi, shot, weapon, cfg, ei);
            SamePrefix(p.bullets, r.pass.bullets, bi)
  {
    var r := EnemyPass(p, bi, shot, weapon, cfg, ei);
    EnemyPassBullets(p, bi, shot, weapon, cfg, ei);
    DropRunElements(p.bullets, bi, r.cuts);
    if bi < |p.bullets| {
      assert r.pass.bullets[..bi] == p.bullets[..bi];
    }
  }

  /** The enemies one bullet's callbacks leave are the original ones,
      some removed and some hurt, in their order; no more enemies are
      removed than hits were made, and each hit lands on its own enemy from
      `ei` on, so there are no more hits than such enemies. */
  lemma {:induction false} EnemyPassHurts(p: Pass, bi: nat, shot: Shot, weapon: string, cfg: Config, ei: nat)
    requires Tracks(p, bi, shot)
    ensures var r := EnemyPass(p, bi, shot, weapon, cfg, ei);
            && Weakened(r.pass.enemies, p.enemies)
            && |p.enemies| - |r.pass.enemies| <= r.hits
            && (r.hits == 0 || ei + r.hits <= |p.enemies|)
    decreases |p.enemies| - ei
  {
    if ei >= |p.enemies| {
      SubsequenceReflexive(p.enemies);
      SubsequenceWeakened(p.enemies, p.enemies);
    } else if Overlaps(BulletBox(shot.bullet, cfg), EnemyBox(p.enemies[ei])) {
      var t := Strike(p, bi, ei, shot, weapon);
      var rest := EnemyPass(t.pass, bi, t.shot, weapon, cfg, ei + 1);
      EnemyPassHurts(t.pass, bi, t.shot, weapon, cfg, ei + 1);
      var r := EnemyPass(p, bi, shot, weapon, cfg, ei);
      assert r == Turn(rest.pass, rest.shot, rest.hits + 1, rest.cuts + t.cuts);
      HurtsAfterStrike(p.enemies, t.pass.enemies, r.pass.enemies, rest.hits, r.hits, ei);
    } else {
      EnemyPassHurts(p, bi, shot, weapon, cfg, ei + 1);
    }
  }

  /** Some bullet from `bi` on overlaps some enemy. */
  predicate HitAhead(p: Pass, cfg: Config, bi: nat)
  {
    exists i, j :: bi <= i < |p.bullets| && 0 <= j < |p.enemies| &&
      Overlaps(BulletBox(p.bullets[i], cfg), EnemyBox(p.enemies[j]))
  }

  /** One step of the bullet pass, on the enemies `rs` the later bullets
      leave: a bullet that misses changes nothing, so the question passes to
      the next bullet; a bullet that hits changes the enemies, and the later
      bullets cannot undo that. */
  lemma BulletStepChanges(p: Pass, weapon: string, cfg: Config, bi: nat, rs: seq<Enemy>)
    requires bi < |p.bullets|
    requires var t := EnemyPass(p, bi, Shot(p.bullets[bi], true), weapon, cfg, 0);
             && Weakened(rs, t.pass.enemies)
             && (rs != t.pass.enemies <==> HitAhead(t.pass, cfg, bi + 1))
    ensures rs != p.enemies <==> HitAhead(p, cfg, bi)
  {
    var shot := Shot(p.bullets[bi], true);
    var t := EnemyPass(p, bi, shot, weapon, cfg, 0);
    EnemyPassHurts(p, bi, shot, weapon, cfg, 0);
    WeakenedStaysChanged(rs, t.pass.enemies, p.enemies);
    if exists j :: 0 <= j < |p.enemies| && Overlaps(BulletBox(p.bullets[bi], cfg), EnemyBox(p.enemies[j])) {
      EnemyPassHitChangesEnemies(p, bi, shot, weapon, cfg, 0);
      var j :| 0 <= j < |p.enemies| && Overlaps(BulletBox(p.bullets[bi], cfg), EnemyBox(p.enemies[j]));
      assert HitAhead(p, cfg, bi) by {
        assert bi <= bi < |p.bullets|;
      }
    } else {
      EnemyPassMisses(p, bi, shot, weapon, cfg, 0);
      assert t.pass == p;
      if HitAhead(p, cfg, bi) {
        var i, j :| bi <= i < |p.bullets| && 0 <= j < |p.enemies| &&
                    Overlaps(BulletBox(p.bullets[i], cfg), EnemyBox(p.enemies[j]));
        assert i != bi;
        assert HitAhead(p, cfg, bi + 1);
      }
    }
  }

  /** The same on plain values: a strike that removed at most one enemy,
      followed by the rest of the walk. */
  lemma HurtsAfterStrike(ps: seq<Enemy>, ts: seq<Enemy>, rs: seq<Enemy>, rh: nat, h: nat, ei: nat)
    requires Weakened(ts, ps) && Weakened(rs, ts)
    requires |ps| <= |ts| + 1 && ei < |ps|
    requires |ts| - |rs| <= rh && (rh == 0 || ei + 1 + rh <= |ts|)
    requires h == rh + 1
    ensures Weakened(rs, ps) && |ps| - |rs| <= h && ei + h <= |ps|
  {
    WeakenedTransitive(rs, ts, ps);
    WeakenedLength(ts, ps);
  }

  /** The outer forEach over the bullets from index `bi` on: each bullet
      still at an index when its turn comes runs the enemy pass. Bullets
      below `bi` are untouched and no bullet is added; enemies are only
      removed or hurt, keeping their order, and each one removed paid 10
      coins; they change exactly when some bullet from `bi` on overlaps some
      enemy. Without the sniper the bullets left keep their order. */
  function BulletPass(p: Pass, weapon: string, cfg: Config, bi: nat): (r: Pass)
    ensures |r.bullets| <= |p.bullets|
    ensures SamePrefix(p.bullets, r.bullets, bi)
    ensures weapon != "sniper" ==> IsSubsequence(r.bullets, p.bullets)
    ensures Weakened(r.enemies, p.enemies)
    ensures r.enemies != p.enemies <==> HitAhead(p, cfg, bi)
    ensures |r.enemies| <= |p.enemies|
    ensures r.coins == p.coins + 10 * (|p.enemies| - |r.enemies|)
    ensures Alive(p.enemies) ==> Alive(r.enemies)
    decreases |p.bullets| - bi
  {
    if bi >= |p.bullets| then
      SubsequenceReflexive(p.bullets);
      SubsequenceReflexive(p.enemies);
      SubsequenceWeakened(p.enemies, p.enemies);
      p
    else
      var t := EnemyPass(p, bi, Shot(p.bullets[bi], true), weapon, cfg, 0);
      var rest := BulletPass(t.pass, weapon, cfg, bi + 1);
      EnemyPassHurts(p, bi, Shot(p.bullets[bi], true), weapon, cfg, 0);
      EnemyPassBullets(p, bi, Shot(p.bullets[bi], true), weapon, cfg, 0);
      EnemyPassKeepsBelow(p, bi, Shot(p.bullets[bi], true), weapon, cfg, 0);
      SamePrefixTransitive(p.bullets, t.pass.bullets, rest.bullets, bi, bi + 1);
      WeakenedTransitive(rest.enemies, t.pass.enemies, p.enemies);
      BulletStepChanges(p, weapon, cfg, bi, rest.enemies);
      DropRunSubsequence(p.bullets, bi, t.hits);
      if weapon != "sniper" then
        EnemyPassSplicesRun(p, bi, Shot(p.bullets[bi], true), weapon, cfg, 0);
        SubsequenceTransitive(rest.bullets, t.pass.bullets, p.bullets);
        rest
      else
        rest
  }

  /** What `checkCollisions` leaves behind, with the number of enemies shot
      down and the number that touched the player, and whether it calls
      `nextWave`. */
  datatype Collisions = Collisions(world: World, kills: nat, contacts: nat, nextWave: bool)

  /** `checkCollisions`. Bullets are only removed, and without the sniper
      the bullets left keep their order. The enemies left are original ones,
      some hurt, in their order, and a bullet overlapping an enemy leaves
      them different from before. Each enemy shot down paid
      10 coins and each enemy touching the player cost DAMAGE_AMOUNT hit
      points, both removing their enemy; enemies that had health left still
      have some. With non-negative damage the game is over afterwards exactly
      when it was before or some contact happened and the hit points ended
      at or below zero. The next wave is called exactly when no enemy is left
      and the game is not over. The player's position is untouched. */
  function CheckCollisions(w: World, weapon: string, cfg: Config): (r: Collisions)
    ensures |r.world.bullets| <= |w.bullets|
    ensures weapon != "sniper" ==> IsSubsequence(r.world.bullets, w.bullets)
    ensures Weakened(r.world.enemies, w.enemies)
    ensures HitAhead(Pass(w.bullets, w.enemies, w.coins), cfg, 0) ==> r.world.enemies != w.enemies
    ensures |r.world.enemies| + r.kills + r.contacts == |w.enemies|
    ensures r.world.coins == w.coins + 10 * r.kills
    ensures r.world.player == w.player.(hp := w.player.hp - cfg.damageAmount * r.contacts)
    ensures cfg.damageAmount >= 0 ==>
              (r.world.gameOver <==> w.gameOver || (r.contacts > 0 && r.world.player.hp <= 0))
    ensures r.nextWave <==> |r.world.enemies| == 0 && !r.world.gameOver
    ensures Alive(w.enemies) ==> Alive(r.world.enemies)
  {
    var p := BulletPass(Pass(w.bullets, w.enemies, w.coins), weapon, cfg, 0);
    var c := Contact.ContactPass(PlayerBox(w.player), p.enemies, EnemyBox, cfg.damageAmount,
                                 w.player.hp, w.gameOver);
    AliveSubset(p.enemies, c.enemies);
    SubsequenceWeakened(c.enemies, p.enemies);
    WeakenedTransitive(c.enemies, p.enemies, w.enemies);
    WeakenedStaysChanged(c.enemies, p.enemies, w.enemies);
    var world := w.(player := w.player.(hp := c.hp), bullets := p.bullets, enemies := c.enemies,
                    coins := p.coins, gameOver := c.over);
    Collisions(world, |w.enemies| - |p.enemies|, c.contacts, |c.enemies| == 0 && !c.over)
  }

  /** The shot hits something exactly when it overlaps some enemy from `ei`
      on: the walk reaches the first such enemy untouched. */
  lemma {:induction false} EnemyPassHitsIffOverlap(p: Pass, bi: nat, shot: Shot, weapon: string,
                                                   cfg: Config, ei: nat)
    requires Tracks(p, bi, shot)
    ensures EnemyPass(p, bi, shot, weapon, cfg, ei).hits > 0 <==>
              exists j :: ei <= j < |p.enemies| && Overlaps(BulletBox(shot.bullet, cfg), EnemyBox(p.enemies[j]))
    decreases |p.enemies| - ei
  {
    if ei < |p.enemies| && !Overlaps(BulletBox(shot.bullet, cfg), EnemyBox(p.enemies[ei])) {
      EnemyPassHitsIffOverlap(p, bi, shot, weapon, cfg, ei + 1);
    }
  }

  /** A strike changes the enemies from index `ei` on only. */
  lemma StrikeKeepsEnemiesBelow(p: Pass, bi: nat, ei: nat, shot: Shot, weapon: string)
    requires ei < |p.enemies|
    requires Tracks(p, bi, shot)
    ensures SamePrefix(p.enemies, Strike(p, bi, ei, shot, weapon).pass.enemies, ei)
  {
    var es := p.enemies;
    var hurt := es[ei].(health := es[ei].health - Damage(weapon));
    if hurt.health <= 0.0 {
      assert SpliceOne(es, ei)[..ei] == es[..ei];
    } else {
      assert es[ei := hurt][..ei] == es[..ei];
    }
  }

  /** The callbacks for one bullet from enemy `ei` on leave the enemies
      below `ei` in place. */
  lemma {:induction false} EnemyPassKeepsEnemiesBelow(p: Pass, bi: nat, shot: Shot, weapon: string,
                                                      cfg: Config, ei: nat)
    requires Tracks(p, bi, shot)
    ensures SamePrefix(p.enemies, EnemyPass(p, bi, shot, weapon, cfg, ei).pass.enemies, ei)
    decreases |p.enemies| - ei
  {
    var r := EnemyPass(p, bi, shot, weapon, cfg, ei);
    if ei < |p.enemies| {
      if Overlaps(BulletBox(shot.bullet, cfg), EnemyBox(p.enemies[ei])) {
        var t := Strike(p, bi, ei, shot, weapon);
        var rest := EnemyPass(t.pass, bi, t.shot, weapon, cfg, ei + 1);
        assert r == Turn(rest.pass, rest.shot, rest.hits + 1, rest.cuts + t.cuts);
        EnemyPassKeepsEnemiesBelow(t.pass, bi, t.shot, weapon, cfg, ei + 1);
        StrikeKeepsEnemiesBelow(p, bi, ei, shot, weapon);
        SamePrefixTransitive(p.enemies, t.pass.enemies, r.pass.enemies, ei, ei + 1);
      } else {
        EnemyPassKeepsEnemiesBelow(p, bi, shot, weapon, cfg, ei + 1);
        SamePrefixTransitive(p.enemies, p.enemies, r.pass.enemies, ei, ei + 1);
      }
    }
  }

  /** The first enemy from `ei` on that the shot overlaps takes the hit:
      the enemies before it are untouched, and it either stays at its index
      with exactly Damage(weapon) less health, or it is removed and at least
      10 coins are paid. */
  lemma {:induction false} EnemyPassFirstHit(p: Pass, bi: nat, shot: Shot, weapon: string,
                          cfg: Config, ei: nat, j: nat)
    requires Tracks(p, bi, shot)
    requires ei <= j < |p.enemies|
    requires Overlaps(BulletBox(shot.bullet, cfg), EnemyBox(p.enemies[j]))
    requires forall k :: ei <= k < j ==> !Overlaps(BulletBox(shot.bullet, cfg), EnemyBox(p.enemies[k]))
    ensures var r := EnemyPass(p, bi, shot, weapon, cfg, ei);
            var hurt := p.enemies[j].(health := p.enemies[j].health - Damage(weapon));
            && r.hits > 0
            && SamePrefix(p.enemies, r.pass.enemies, j)
            && (hurt.health > 0.0 ==> j < |r.pass.enemies| && r.pass.enemies[j] == hurt)
            && (hurt.health <= 0.0 ==> |r.pass.enemies| < |p.enemies| && r.pass.coins >= p.coins + 10)
  {
    EnemyPassSkipsMisses(p, bi, shot, weapon, cfg, ei, j);
    EnemyPassHitAt(p, bi, shot, weapon, cfg, j);
  }

  /** The same for a walk that starts at the hit enemy. */
  lemma {:induction false} EnemyPassHitAt(p: Pass, bi: nat, shot: Shot, weapon: string, cfg: Config, j: nat)
    requires Tracks(p, bi, shot)
    requires j < |p.enemies|
    requires Overlaps(BulletBox(shot.bullet, cfg), EnemyBox(p.enemies[j]))
    ensures var r := EnemyPass(p, bi, shot, weapon, cfg, j);
            var hurt := p.enemies[j].(health := p.enemies[j].health - Damage(weapon));
            && r.hits > 0
            && SamePrefix(p.enemies, r.pass.enemies, j)
            && (hurt.health > 0.0 ==> j < |r.pass.enemies| && r.pass.enemies[j] == hurt)
            && (hurt.health <= 0.0 ==> |r.pass.enemies| < |p.enemies| && r.pass.coins >= p.coins + 10)
  {
    var hurt := p.enemies[j].(health := p.enemies[j].health - Damage(weapon));
    var t := Strike(p, bi, j, shot, weapon);
    var rest := EnemyPass(t.pass, bi, t.shot, weapon, cfg, j + 1);
    var r := EnemyPass(p, bi, shot, weapon, cfg, j);
    assert r == Turn(rest.pass, rest.shot, rest.hits + 1, rest.cuts + t.cuts);
    EnemyPassKeepsEnemiesBelow(t.pass, bi, t.shot, weapon, cfg, j + 1);
    FirstHitAfterStrike(p.enemies, t.pass.enemies, r.pass.enemies, j, hurt,
                        p.coins, t.pass.coins, r.pass.coins);
  }

  /** The walk passes over enemies the shot does not overlap. */
  lemma {:induction false} EnemyPassSkipsMisses(p: Pass, bi: nat, shot: Shot, weapon: string,
                                                cfg: Config, ei: nat, j: nat)
    requires Tracks(p, bi, shot)
    requires ei <= j <= |p.enemies|
    requires forall k :: ei <= k < j ==> !Overlaps(BulletBox(shot.bullet, cfg), EnemyBox(p.enemies[k]))
    ensures EnemyPass(p, bi, shot, weapon, cfg, ei) == EnemyPass(p, bi, shot, weapon, cfg, j)
    decreases j - ei
  {
    if ei < j {
      assert !Overlaps(BulletBox(shot.bullet, cfg), EnemyBox(p.enemies[ei]));
      EnemyPassSkipsMisses(p, bi, shot, weapon, cfg, ei + 1, j);
    }
  }

  /** The same on plain values: the strike on enemy `j` followed by a walk
      that keeps the enemies up to `j` in place. */
  lemma FirstHitAfterStrike(ps: seq<Enemy>, ts: seq<Enemy>, rs: seq<Enemy>, j: nat, hurt: Enemy,
                            cp: int, ct: int, cr: int)
    requires j < |ps|
    requires hurt.health <= 0.0 ==> ts == SpliceOne(ps, j) && ct == cp + 10
    requires hurt.health > 0.0 ==> ts == ps[j := hurt]
    requires SamePrefix(ts, rs, j + 1)
    requires |rs| <= |ts| && cr == ct + 10 * (|ts| - |rs|)
    ensures SamePrefix(ps, rs, j)
    ensures hurt.health > 0.0 ==> j < |rs| && rs[j] == hurt
    ensures hurt.health <= 0.0 ==> |rs| < |ps| && cr >= cp + 10
  {
    if hurt.health <= 0.0 {
      assert ts[..j] == ps[..j];
    } else {
      assert ts[..j] == ps[..j];
      assert rs[j] == rs[..j + 1][j];
    }
    SamePrefixTransitive(ps, ts, rs, j, j + 1);
  }

  /** A shot that overlaps some enemy from `ei` on leaves the enemies
      different from what they were: the hit enemy is hurt or removed, and
      later hits cannot undo that. */
  lemma {:induction false} EnemyPassHitChangesEnemies(p: Pass, bi: nat, shot: Shot, weapon: string,
                                                      cfg: Config, ei: nat)
    requires Tracks(p, bi, shot)
    ensures (exists j :: ei <= j < |p.enemies| && Overlaps(BulletBox(shot.bullet, cfg), EnemyBox(p.enemies[j]))) ==>
              EnemyPass(p, bi, shot, weapon, cfg, ei).pass.enemies != p.enemies
    decreases |p.enemies| - ei
  {
    if ei < |p.enemies| {
      if Overlaps(BulletBox(shot.bullet, cfg), EnemyBox(p.enemies[ei])) {
        var t := Strike(p, bi, ei, shot, weapon);
        var rest := EnemyPass(t.pass, bi, t.shot, weapon, cfg, ei + 1);
        EnemyPassHurts(t.pass, bi, t.shot, weapon, cfg, ei + 1);
        if |t.pass.enemies| == |p.enemies| {
          assert t.pass.enemies[ei].health < p.enemies[ei].health;
        }
        WeakenedStaysChanged(rest.pass.enemies, t.pass.enemies, p.enemies);
        assert EnemyPass(p, bi, shot, weapon, cfg, ei).pass == rest.pass;
      } else {
        EnemyPassHitChangesEnemies(p, bi, shot, weapon, cfg, ei + 1);
      }
    }
  }

  /** One hit of the enemy walk: the strike, then the walk from the next
      index. */
  lemma {:induction false} EnemyPassHitStep(p: Pass, bi: nat, shot: Shot, weapon: string, cfg: Config, ei: nat)
    requires Tracks(p, bi, shot)
    requires ei < |p.enemies| && Overlaps(BulletBox(shot.bullet, cfg), EnemyBox(p.enemies[ei]))
    ensures var t := Strike(p, bi, ei, shot, weapon);
            var rest := EnemyPass(t.pass, bi, t.shot, weapon, cfg, ei + 1);
            EnemyPass(p, bi, shot, weapon, cfg, ei) == Turn(rest.pass, rest.shot, rest.hits + 1, rest.cuts + t.cuts)
  {
  }

  /** The collision test of game.js:38-41 for a shot with box `box`, as a
      test on enemies. */
  function Struck(box: Box): Enemy -> bool
  {
    e => Overlaps(box, EnemyBox(e))
  }

  /** When every enemy the shot overlaps dies of its hit, the enemy walk is
      exactly the generic forEach-with-splice walk: each killed enemy is
      spliced and the enemy shifted into its index is not looked at. */
  lemma {:induction false} EnemyPassKillsAllStruck(p: Pass, bi: nat, shot: Shot, weapon: string,
                                                   cfg: Config, ei: nat)
    requires Tracks(p, bi, shot)
    requires forall k :: ei <= k < |p.enemies| && Overlaps(BulletBox(shot.bullet, cfg), EnemyBox(p.enemies[k])) ==>
               p.enemies[k].health <= Damage(weapon)
    ensures var r := EnemyPass(p, bi, shot, weapon, cfg, ei);
            (r.pass.enemies, r.hits) == ForEachSplice.SweepFrom(p.enemies, Struck(BulletBox(shot.bullet, cfg)), ei)
    decreases |p.enemies| - ei
  {
    if ei < |p.enemies| {
      var box := BulletBox(shot.bullet, cfg);
      if Overlaps(box, EnemyBox(p.enemies[ei])) {
        var t := Strike(p, bi, ei, shot, weapon);
        assert BulletBox(t.shot.bullet, cfg) == box;
        KillStep(p.enemies, t.pass.enemies, box, Damage(weapon), ei);
        EnemyPassKillsAllStruck(t.pass, bi, t.shot, weapon, cfg, ei + 1);
        EnemyPassHitStep(p, bi, shot, weapon, cfg, ei);
        var rest := EnemyPass(t.pass, bi, t.shot, weapon, cfg, ei + 1);
        var r := EnemyPass(p, bi, shot, weapon, cfg, ei);
        SweepAfterKill(p.enemies, t.pass.enemies, Struck(box), ei, rest.pass.enemies, rest.hits, r.hits);
      } else {
        assert !Struck(box)(p.enemies[ei]);
        EnemyPassKillsAllStruck(p, bi, shot, weapon, cfg, ei + 1);
      }
    }
  }

  /** The same on plain values: a kill at `ei` shifts the later enemies
      down by one, so the premise carries over to the walk from `ei + 1`. */
  lemma KillStep(es: seq<Enemy>, ts: seq<Enemy>, box: Box, d: real, ei: nat)
    requires ei < |es| && Overlaps(box, EnemyBox(es[ei]))
    requires es[ei].health <= d ==> ts == SpliceOne(es, ei)
    requires forall k :: ei <= k < |es| && Overlaps(box, EnemyBox(es[k])) ==> es[k].health <= d
    ensures ts == SpliceOne(es, ei)
    ensures forall k :: ei + 1 <= k < |ts| && Overlaps(box, EnemyBox(ts[k])) ==> ts[k].health <= d
  {
    forall k | ei + 1 <= k < |ts| && Overlaps(box, EnemyBox(ts[k]))
      ensures ts[k].health <= d
    {
      assert ts[k] == es[k + 1];
    }
  }

  /** One step of the generic walk at a match. */
  lemma SweepAfterKill(es: seq<Enemy>, ts: seq<Enemy>, f: Enemy -> bool, ei: nat,
                       rs: seq<Enemy>, rh: nat, h: nat)
    requires ei < |es| && f(es[ei]) && ts == SpliceOne(es, ei)
    requires (rs, rh) == ForEachSplice.SweepFrom(ts, f, ei + 1)
    requires h == rh + 1
    ensures (rs, h) == ForEachSplice.SweepFrom(es, f, ei)
  {
  }

  /** A bullet over a pile of enemies that each die of one hit kills only
      every other one, (n + 1) / 2 of n: each kill shifts the next enemy into
      the index just visited. */
  lemma {:induction false} EnemyPassOverPileKillsHalf(p: Pass, bi: nat, shot: Shot, weapon: string, cfg: Config)
    requires Tracks(p, bi, shot)
    requires forall k :: 0 <= k < |p.enemies| ==>
               Overlaps(BulletBox(shot.bullet, cfg), EnemyBox(p.enemies[k])) && p.enemies[k].health <= Damage(weapon)
    ensures var r := EnemyPass(p, bi, shot, weapon, cfg, 0);
            r.hits == (|p.enemies| + 1) / 2 && |p.enemies| - |r.pass.enemies| == (|p.enemies| + 1) / 2
  {
    var box := BulletBox(shot.bullet, cfg);
    EnemyPassKillsAllStruck(p, bi, shot, weapon, cfg, 0);
    forall k | 0 <= k < |p.enemies|
      ensures Struck(box)(p.enemies[k])
    {
    }
    ForEachSplice.SweepOverAllHitsRemovesHalf(p.enemies, Struck(box), 0);
  }

  /** The number of enemies in `es` that a box overlaps. */
  function CountStruck(box: Box, es: seq<Enemy>): nat
  {
    if |es| == 0 then 0
    else (if Overlaps(box, EnemyBox(es[0])) then 1 else 0) + CountStruck(box, es[1..])
  }

  /** The enemies from `ei` on that a box overlaps, each with `d` less
      health. */
  function DamagedFrom(box: Box, es: seq<Enemy>, ei: nat, d: real): seq<Enemy>
  {
    seq(|es|, k requires 0 <= k < |es| =>
      if ei <= k && Overlaps(box, EnemyBox(es[k])) then es[k].(health := es[k].health - d) else es[k])
  }

  /** When every enemy the shot overlaps survives its hit, nothing is
      removed or paid and every overlapped enemy from `ei` on takes exactly
      one hit in place, whether or not the bullet was spliced out on the
      way: the bullet held by the callback goes on damaging. */
  lemma {:induction false} EnemyPassHurtsAllStruck(p: Pass, bi: nat, shot: Shot, weapon: string,
                                                   cfg: Config, ei: nat)
    requires Tracks(p, bi, shot)
    requires ei <= |p.enemies|
    requires forall k :: ei <= k < |p.enemies| && Overlaps(BulletBox(shot.bullet, cfg), EnemyBox(p.enemies[k])) ==>
               p.enemies[k].health > Damage(weapon)
    ensures var r := EnemyPass(p, bi, shot, weapon, cfg, ei);
            && r.pass.enemies == DamagedFrom(BulletBox(shot.bullet, cfg), p.enemies, ei, Damage(weapon))
            && r.pass.coins == p.coins
            && r.hits == CountStruck(BulletBox(shot.bullet, cfg), p.enemies[ei..])
    decreases |p.enemies| - ei
  {
    var box := BulletBox(shot.bullet, cfg);
    var d := Damage(weapon);
    if ei == |p.enemies| {
      assert DamagedFrom(box, p.enemies, ei, d) == p.enemies;
    } else if Overlaps(box, EnemyBox(p.enemies[ei])) {
      var t := Strike(p, bi, ei, shot, weapon);
      assert BulletBox(t.shot.bullet, cfg) == box;
      HurtStep(p.enemies, t.pass.enemies, box, d, ei);
      EnemyPassHurtsAllStruck(t.pass, bi, t.shot, weapon, cfg, ei + 1);
      EnemyPassHitStep(p, bi, shot, weapon, cfg, ei);
    } else {
      MissStep(p.enemies, box, d, ei);
      EnemyPassHurtsAllStruck(p, bi, shot, weapon, cfg, ei + 1);
    }
  }

  /** The same on plain values, for a hit that leaves the enemy alive. */
  lemma HurtStep(es: seq<Enemy>, ts: seq<Enemy>, box: Box, d: real, ei: nat)
    requires ei < |es| && Overlaps(box, EnemyBox(es[ei]))
    requires forall k :: ei <= k < |es| && Overlaps(box, EnemyBox(es[k])) ==> es[k].health > d
    requires es[ei].health - d > 0.0 ==> ts == es[ei := es[ei].(health := es[ei].health - d)]
    ensures ts == es[ei := es[ei].(health := es[ei].health - d)]
    ensures forall k :: ei + 1 <= k < |ts| && Overlaps(box, EnemyBox(ts[k])) ==> ts[k].health > d
    ensures DamagedFrom(box, ts, ei + 1, d) == DamagedFrom(box, es, ei, d)
    ensures CountStruck(box, es[ei..]) == 1 + CountStruck(box, ts[ei + 1..])
  {
    assert es[ei..][1..] == es[ei + 1..] == ts[ei + 1..];
  }

  /** The same on plain values, for an enemy the shot misses. */
  lemma MissStep(es: seq<Enemy>, box: Box, d: real, ei: nat)
    requires ei < |es| && !Overlaps(box, EnemyBox(es[ei]))
    ensures DamagedFrom(box, es, ei + 1, d) == DamagedFrom(box, es, ei, d)
    ensures CountStruck(box, es[ei..]) == CountStruck(box, es[ei + 1..])
  {
    assert es[ei..][1..] == es[ei + 1..];
  }

  /** A sniper bullet with penetration `q` passes through its first `q - 1`
      hits and splices on every hit after that, spliced out itself or not. */
  lemma {:induction false} SniperCuts(p: Pass, bi: nat, shot: Shot, cfg: Config, ei: nat)
    requires Tracks(p, bi, shot)
    ensures var r := EnemyPass(p, bi, shot, "sniper", cfg, ei);
            var q := if shot.bullet.penetration < 1 then 1 else shot.bullet.penetration;
            r.cuts == if r.hits >= q then r.hits - (q - 1) else 0
    decreases |p.enemies| - ei
  {
    if ei < |p.enemies| {
      if Overlaps(BulletBox(shot.bullet, cfg), EnemyBox(p.enemies[ei])) {
        var t := Strike(p, bi, ei, shot, "sniper");
        SniperCuts(t.pass, bi, t.shot, cfg, ei + 1);
        EnemyPassHitStep(p, bi, shot, "sniper", cfg, ei);
        var rest := EnemyPass(t.pass, bi, t.shot, "sniper", cfg, ei + 1);
        var r := EnemyPass(p, bi, shot, "sniper", cfg, ei);
        CutsAfterStrike(shot.bullet.penetration, Pierces("sniper", shot.bullet), t.shot.bullet.penetration,
                        t.cuts, rest.hits, rest.cuts, r.hits, r.cuts);
      } else {
        SniperCuts(p, bi, shot, cfg, ei + 1);
      }
    }
  }

  /** The same on plain values: a pierce uses up one penetration without
      a cut, any other hit cuts and leaves the penetration alone. */
  lemma CutsAfterStrike(pen: int, pierced: bool, pen': int, tc: nat, rh: nat, rc: nat, h: nat, c: nat)
    requires pierced <==> pen > 1
    requires pierced ==> pen' == pen - 1 && tc == 0
    requires !pierced ==> pen' == pen && tc == 1
    requires var q' := if pen' < 1 then 1 else pen';
             rc == if rh >= q' then rh - (q' - 1) else 0
    requires h == rh + 1 && c == rc + tc
    ensures var q := if pen < 1 then 1 else pen;
            c == if h >= q then h - (q - 1) else 0
  {
  }

  /** An enemy the shot does not overlap is never struck: it stays in the
      array as often as it occurred. A struck enemy has another box, so
      neither it nor its hurt copy is that enemy. */
  lemma {:induction false} EnemyPassKeepsUnhit(p: Pass, bi: nat, shot: Shot, weapon: string,
                                               cfg: Config, ei: nat, e: Enemy)
    requires Tracks(p, bi, shot)
    requires !Overlaps(BulletBox(shot.bullet, cfg), EnemyBox(e))
    ensures multiset(EnemyPass(p, bi, shot, weapon, cfg, ei).pass.enemies)[e] == multiset(p.enemies)[e]
    decreases |p.enemies| - ei
  {
    if ei < |p.enemies| {
      if Overlaps(BulletBox(shot.bullet, cfg), EnemyBox(p.enemies[ei])) {
        var t := Strike(p, bi, ei, shot, weapon);
        StrikeKeepsOthers(p, bi, ei, shot, weapon, e);
        assert BulletBox(t.shot.bullet, cfg) == BulletBox(shot.bullet, cfg);
        EnemyPassKeepsUnhit(t.pass, bi, t.shot, weapon, cfg, ei + 1, e);
      } else {
        EnemyPassKeepsUnhit(p, bi, shot, weapon, cfg, ei + 1, e);
      }
    }
  }

  /** A strike leaves every enemy with another box than the struck one as
      often as it occurred: neither the struck enemy nor its hurt copy is
      such an enemy. */
  lemma StrikeKeepsOthers(p: Pass, bi: nat, ei: nat, shot: Shot, weapon: string, e: Enemy)
    requires ei < |p.enemies|
    requires Tracks(p, bi, shot)
    requires EnemyBox(e) != EnemyBox(p.enemies[ei])
    ensures multiset(Strike(p, bi, ei, shot, weapon).pass.enemies)[e] == multiset(p.enemies)[e]
  {
    var es := p.enemies;
    var hurt := es[ei].(health := es[ei].health - Damage(weapon));
    assert EnemyBox(hurt) == EnemyBox(es[ei]);
    assert es == es[..ei] + [es[ei]] + es[ei + 1..];
    if hurt.health <= 0.0 {
      assert SpliceOne(es, ei) == es[..ei] + es[ei + 1..];
    } else {
      assert es[ei := hurt] == es[..ei] + [hurt] + es[ei + 1..];
    }
  }

  /** Bullets after `bi` that keep clear of a box still do after the
      callbacks for the bullet at `bi`: those bullets only move down. */
  lemma EnemyPassKeepsClear(p: Pass, bi: nat, shot: Shot, weapon: string, cfg: Config, ei: nat, box: Box)
    requires Tracks(p, bi, shot)
    requires forall i :: bi < i < |p.bullets| ==> !Overlaps(BulletBox(p.bullets[i], cfg), box)
    ensures var r := EnemyPass(p, bi, shot, weapon, cfg, ei);
            forall i :: bi < i < |r.pass.bullets| ==> !Overlaps(BulletBox(r.pass.bullets[i], cfg), box)
  {
    var r := EnemyPass(p, bi, shot, weapon, cfg, ei);
    EnemyPassBullets(p, bi, shot, weapon, cfg, ei);
    ClearAfterRun(p.bullets, bi, r.shot.attached, r.shot.bullet, r.cuts, r.pass.bullets, cfg, box);
  }

  /** The same on plain values: past `bi`, a rewritten or run-spliced array
      holds only bullets of the original array past `bi`. */
  lemma ClearAfterRun(bs: seq<Bullet>, bi: nat, attached: bool, b: Bullet, c: nat, rs: seq<Bullet>,
                      cfg: Config, box: Box)
    requires attached ==> bi < |bs| && rs == bs[bi := b]
    requires !attached ==> rs == DropRun(bs, bi, c)
    requires forall i :: bi < i < |bs| ==> !Overlaps(BulletBox(bs[i], cfg), box)
    ensures forall i :: bi < i < |rs| ==> !Overlaps(BulletBox(rs[i], cfg), box)
  {
    DropRunElements(bs, bi, c);
    forall i | bi < i < |rs|
      ensures !Overlaps(BulletBox(rs[i], cfg), box)
    {
      if attached {
        assert rs[i] == bs[i];
      } else if bi < |bs| {
        var m := if bi + c < |bs| then bi + c else |bs|;
        assert rs[i] == bs[i + (m - bi)];
      }
    }
  }

  /** An enemy that no bullet from `bi` on overlaps survives the bullet pass
      as often as it occurred, whatever the kept references splice. */
  lemma {:induction false} BulletPassKeepsUnhit(p: Pass, weapon: string, cfg: Config, bi: nat, e: Enemy)
    requires forall i :: bi <= i < |p.bullets| ==> !Overlaps(BulletBox(p.bullets[i], cfg), EnemyBox(e))
    ensures multiset(BulletPass(p, weapon, cfg, bi).enemies)[e] == multiset(p.enemies)[e]
    decreases |p.bullets| - bi
  {
    if bi < |p.bullets| {
      var shot := Shot(p.bullets[bi], true);
      var t := EnemyPass(p, bi, shot, weapon, cfg, 0);
      EnemyPassKeepsUnhit(p, bi, shot, weapon, cfg, 0, e);
      EnemyPassKeepsClear(p, bi, shot, weapon, cfg, 0, EnemyBox(e));
      BulletPassKeepsUnhit(t.pass, weapon, cfg, bi + 1, e);
    }
  }

  /** A bullet stays where it is when neither it nor any bullet before it
      from `bi` on overlaps an enemy: no callback before its turn struck
      anything. */
  lemma {:induction false} BulletPassKeepsMissPrefix(p: Pass, weapon: string, cfg: Config, bi: nat, j: nat)
    requires bi <= j < |p.bullets|
    requires forall i, k :: bi <= i <= j && 0 <= k < |p.enemies| ==>
               !Overlaps(BulletBox(p.bullets[i], cfg), EnemyBox(p.enemies[k]))
    ensures var r := BulletPass(p, weapon, cfg, bi);
            j < |r.bullets| && r.bullets[j] == p.bullets[j]
    decreases j - bi
  {
    EnemyPassMisses(p, bi, Shot(p.bullets[bi], true), weapon, cfg, 0);
    if bi < j {
      BulletPassKeepsMissPrefix(p, weapon, cfg, bi + 1, j);
    } else {
      var r := BulletPass(p, weapon, cfg, bi + 1);
      assert BulletPass(p, weapon, cfg, bi) == r;
      assert r.bullets[..j + 1] == p.bullets[..j + 1];
      assert r.bullets[j] == r.bullets[..j + 1][j];
    }
  }

  /** The outer forEach moves on after a bullet's turn: without the
      sniper, a bullet with `h` hits splices the `h` bullets from its index
      on, and the bullet that shifts into that index is not visited this
      frame. It is still there afterwards, untouched, whatever it
      overlaps. */
  lemma {:induction false} BulletPassSkipsShifted(p: Pass, weapon: string, cfg: Config, bi: nat)
    requires weapon != "sniper"
    requires bi < |p.bullets|
    requires var h := EnemyPass(p, bi, Shot(p.bullets[bi], true), weapon, cfg, 0).hits;
             h >= 1 && bi + h < |p.bullets|
    ensures var h := EnemyPass(p, bi, Shot(p.bullets[bi], true), weapon, cfg, 0).hits;
            var r := BulletPass(p, weapon, cfg, bi);
            bi < |r.bullets| && r.bullets[bi] == p.bullets[bi + h]
  {
    var t := EnemyPass(p, bi, Shot(p.bullets[bi], true), weapon, cfg, 0);
    EnemyPassSplicesRun(p, bi, Shot(p.bullets[bi], true), weapon, cfg, 0);
    BulletPassStep(p, weapon, cfg, bi);
    var r := BulletPass(p, weapon, cfg, bi);
    assert SamePrefix(t.pass.bullets, r.bullets, bi + 1);
    ShiftedStaysPut(p.bullets, t.pass.bullets, r.bullets, bi, t.hits);
  }

  /** One turn of the outer forEach. */
  lemma {:induction false} BulletPassStep(p: Pass, weapon: string, cfg: Config, bi: nat)
    requires bi < |p.bullets|
    ensures BulletPass(p, weapon, cfg, bi) ==
            BulletPass(EnemyPass(p, bi, Shot(p.bullets[bi], true), weapon, cfg, 0).pass, weapon, cfg, bi + 1)
  {
  }

  /** The same on plain values: after the run is dropped the bullet from
      `bi + h` sits at `bi`, and a walk that keeps the first `bi + 1`
      bullets keeps it there. */
  lemma ShiftedStaysPut(bs: seq<Bullet>, ts: seq<Bullet>, rs: seq<Bullet>, bi: nat, h: nat)
    requires ts == DropRun(bs, bi, h)
    requires bi + h < |bs|
    requires SamePrefix(ts, rs, bi + 1)
    ensures bi < |rs| && rs[bi] == bs[bi + h]
  {
    DropRunElements(bs, bi, h);
    assert rs[bi] == rs[..bi + 1][bi];
  }

  /** Without any bullet-enemy overlap nothing is shot down. */
  lemma CheckCollisionsKillsNeedHits(w: World, weapon: string, cfg: Config)
    ensures CheckCollisions(w, weapon, cfg).kills > 0 ==>
              exists i, j :: 0 <= i < |w.bullets| && 0 <= j < |w.enemies| &&
                Overlaps(BulletBox(w.bullets[i], cfg), EnemyBox(w.enemies[j]))
  {
    if forall i, j :: 0 <= i < |w.bullets| && 0 <= j < |w.enemies| ==>
         !Overlaps(BulletBox(w.bullets[i], cfg), EnemyBox(w.enemies[j])) {
      BulletPassMisses(Pass(w.bullets, w.enemies, w.coins), weapon, cfg, 0);
    }
  }

  /** An enemy that no bullet overlaps and that does not touch the player
      is still there afterwards, as often as it occurred. */
  lemma CheckCollisionsKeepsUnhit(w: World, weapon: string, cfg: Config, e: Enemy)
    requires forall i :: 0 <= i < |w.bullets| ==> !Overlaps(BulletBox(w.bullets[i], cfg), EnemyBox(e))
    requires !Overlaps(PlayerBox(w.player), EnemyBox(e))
    ensures multiset(CheckCollisions(w, weapon, cfg).world.enemies)[e] == multiset(w.enemies)[e]
  {
    var p := BulletPass(Pass(w.bullets, w.enemies, w.coins), weapon, cfg, 0);
    BulletPassKeepsUnhit(Pass(w.bullets, w.enemies, w.coins), weapon, cfg, 0, e);
    Contact.ContactPassKeepsMisses(PlayerBox(w.player), p.enemies, EnemyBox, cfg.damageAmount,
                                   w.player.hp, w.gameOver, e);
  }

  /** The player is hit exactly as follows: an enemy that touches the player
      and that no bullet overlaps always makes contact, and any contact was
      made by an enemy whose box, unchanged by the bullet pass, touches the
      player. */
  lemma CheckCollisionsContacts(w: World, weapon: string, cfg: Config, e: Enemy)
    ensures e in w.enemies && Overlaps(PlayerBox(w.player), EnemyBox(e)) &&
            (forall i :: 0 <= i < |w.bullets| ==> !Overlaps(BulletBox(w.bullets[i], cfg), EnemyBox(e))) ==>
              CheckCollisions(w, weapon, cfg).contacts > 0
    ensures CheckCollisions(w, weapon, cfg).contacts > 0 ==>
              exists j :: 0 <= j < |w.enemies| && Overlaps(PlayerBox(w.player), EnemyBox(w.enemies[j]))
  {
    var p := BulletPass(Pass(w.bullets, w.enemies, w.coins), weapon, cfg, 0);
    var c := Contact.ContactPass(PlayerBox(w.player), p.enemies, EnemyBox, cfg.damageAmount,
                                 w.player.hp, w.gameOver);
    assert CheckCollisions(w, weapon, cfg).contacts == c.contacts;
    if e in w.enemies && (forall i :: 0 <= i < |w.bullets| ==> !Overlaps(BulletBox(w.bullets[i], cfg), EnemyBox(e))) {
      BulletPassKeepsUnhit(Pass(w.bullets, w.enemies, w.coins), weapon, cfg, 0, e);
      assert e in p.enemies;
    }
    TouchSurvivesWeakening(p.enemies, w.enemies, PlayerBox(w.player));
  }

  /** Damage keeps an enemy's box, so an enemy left after it that touches
      the player comes from an original enemy that does. */
  lemma TouchSurvivesWeakening(rs: seq<Enemy>, es: seq<Enemy>, player: Box)
    requires Weakened(rs, es)
    ensures (exists x :: x in rs && Overlaps(player, EnemyBox(x))) ==>
              exists j :: 0 <= j < |es| && Overlaps(player, EnemyBox(es[j]))
  {
    if exists x :: x in rs && Overlaps(player, EnemyBox(x)) {
      var x :| x in rs && Overlaps(player, EnemyBox(x));
      var k :| 0 <= k < |rs| && rs[k] == x;
      WeakenedMember(rs, es, k);
      var j :| 0 <= j < |es| && Hurt(rs[k], es[j]);
      assert EnemyBox(es[j]) == EnemyBox(x);
    }
  }

  /** A shot that overlaps none of the enemies from `ei` on changes
      nothing. */
  lemma {:induction false} EnemyPassMisses(p: Pass, bi: nat, shot: Shot, weapon: string,
                                           cfg: Config, ei: nat)
    requires Tracks(p, bi, shot)
    requires forall j :: ei <= j < |p.enemies| ==> !Overlaps(BulletBox(shot.bullet, cfg), EnemyBox(p.enemies[j]))
    ensures EnemyPass(p, bi, shot, weapon, cfg, ei) == Turn(p, shot, 0, 0)
    decreases |p.enemies| - ei
  {
    if ei < |p.enemies| {
      EnemyPassMisses(p, bi, shot, weapon, cfg, ei + 1);
    }
  }

  /** When no bullet overlaps any enemy, the bullet pass changes nothing. */
  lemma {:induction false} BulletPassMisses(p: Pass, weapon: string, cfg: Config, bi: nat)
    requires forall i, j :: 0 <= i < |p.bullets| && 0 <= j < |p.enemies| ==>
               !Overlaps(BulletBox(p.bullets[i], cfg), EnemyBox(p.enemies[j]))
    ensures BulletPass(p, weapon, cfg, bi) == p
    decreases |p.bullets| - bi
  {
    if bi < |p.bullets| {
      EnemyPassMisses(p, bi, Shot(p.bullets[bi], true), weapon, cfg, 0);
      BulletPassMisses(p, weapon, cfg, bi + 1);
    }
  }

  /** A sniper bullet with more penetration left than there are enemies
      ahead of it is never spliced: it stays in the bullet array, which
      keeps its length. */
  lemma {:induction false} SniperStaysInArray(p: Pass, bi: nat, shot: Shot, cfg: Config, ei: nat)
    requires Tracks(p, bi, shot)
    requires shot.attached
    requires shot.bullet.penetration > |p.enemies| - ei
    ensures var r := EnemyPass(p, bi, shot, "sniper", cfg, ei);
            r.shot.attached && |r.pass.bullets| == |p.bullets|
    decreases |p.enemies| - ei
  {
    if ei < |p.enemies| {
      if Overlaps(BulletBox(shot.bullet, cfg), EnemyBox(p.enemies[ei])) {
        var t := Strike(p, bi, ei, shot, "sniper");
        SniperStaysInArray(t.pass, bi, t.shot, cfg, ei + 1);
      } else {
        SniperStaysInArray(p, bi, shot, cfg, ei + 1);
      }
    }
  }

  /** A bullet of any other weapon is spliced out of the array by its first
      hit. */
  lemma FirstHitSplices(p: Pass, bi: nat, weapon: string, cfg: Config, ei: nat)
    requires bi < |p.bullets|
    requires weapon != "sniper"
    requires ei < |p.enemies| && Overlaps(BulletBox(p.bullets[bi], cfg), EnemyBox(p.enemies[ei]))
    ensures !EnemyPass(p, bi, Shot(p.bullets[bi], true), weapon, cfg, ei).shot.attached
  {
  }

  /** The kept reference, concretely: a pistol bullet overlapping two sturdy
      enemies splices itself on the first hit and, still damaging the second
      enemy, splices the bullet that has moved into its index, although that
      bullet touches no enemy at all. */
  lemma RemovedBulletSplicesNeighbour()
    ensures var cfg := Config(800.0, 600.0, 8.0, 32.0, 10, 1);
            var b0 := Bullet(100.0, 100.0, 1);
            var b1 := Bullet(500.0, 500.0, 1);
            var b2 := Bullet(700.0, 500.0, 1);
            var e := Enemy(96.0, 96.0, 32.0, 32.0, 10.0);
            && !Overlaps(BulletBox(b1, cfg), EnemyBox(e))
            && BulletPass(Pass([b0, b1, b2], [e, e], 0), "pistol", cfg, 0).bullets == [b2]
  {
    var cfg := Config(800.0, 600.0, 8.0, 32.0, 10, 1);
    var b0 := Bullet(100.0, 100.0, 1);
    var b1 := Bullet(500.0, 500.0, 1);
    var b2 := Bullet(700.0, 500.0, 1);
    var e := Enemy(96.0, 96.0, 32.0, 32.0, 10.0);
    var e' := e.(health := 8.0);
    var p := Pass([b0, b1, b2], [e, e], 0);
    var t1 := Strike(p, 0, 0, Shot(b0, true), "pistol");
    assert t1 == Turn(Pass([b1, b2], [e', e], 0), Shot(b0, false), 1, 1);
    var t2 := Strike(t1.pass, 0, 1, t1.shot, "pistol");
    assert t2 == Turn(Pass([b2], [e', e'], 0), Shot(b0, false), 1, 1);
    assert EnemyPass(t2.pass, 0, t2.shot, "pistol", cfg, 2) == Turn(t2.pass, t2.shot, 0, 0);
    assert EnemyPass(p, 0, Shot(b0, true), "pistol", cfg, 0) == Turn(t2.pass, t2.shot, 2, 2);
  }

  lemma AliveSubset(es: seq<Enemy>, rs: seq<Enemy>)
    requires forall e :: e in rs ==> e in es
    ensures Alive(es) ==> Alive(rs)
  {
    if Alive(es) {
      forall i | 0 <= i < |rs|
        ensures rs[i].health > 0.0
      {
        assert rs[i] in es;
      }
    }
  }
}

=== FILE: game_spawn.dfy ===
/**
 Enemy spawning of game.js: each new enemy enters on a random edge of the
 canvas and is a copy of one of three templates, placed there.
 */
module GameSpawn {
  import opened Geometry
  import opened GameState

  /** The `Math.random()` draws for one enemy: the edge, the position along
      that edge, the maniac test and the shooter test. */
  datatype Draw = Draw(edge: real, along: real, maniac: real, shooter: real)

  /** What `Math.random()` guarantees of every draw. */
  predicate UnitDraw(d: Draw)
  {
    && 0.0 <= d.edge < 1.0 && 0.0 <= d.along < 1.0
    && 0.0 <= d.maniac < 1.0 && 0.0 <= d.shooter < 1.0
  }

  /** `Math.floor(Math.random() * 4)`: one of the four edges, 0 top, 1
      right, 2 bottom, 3 left. */
  function EdgeOf(u: real): (edge: int)
    requires 0.0 <= u < 1.0
    ensures 0 <= edge < 4
    ensures edge as real <= u * 4.0 < edge as real + 1.0
  {
    (u * 4.0).Floor
  }

  /** The spawn corner on edge `edge`. It lies on the line just outside that
      border, so an ENEMY_SIZE square placed there never overlaps the
      canvas. */
  function Place(cfg: Config, edge: int, along: real): (p: (real, real))
    requires 0 <= edge < 4
    requires 0.0 <= along < 1.0
    ensures !Overlaps(Box(p.0, p.1, cfg.enemySize, cfg.enemySize), CanvasBox(cfg))
    ensures edge == 0 ==> p.1 == -cfg.enemySize
    ensures edge == 1 ==> p.0 == cfg.width
    ensures edge == 2 ==> p.1 == cfg.height
    ensures edge == 3 ==> p.0 == -cfg.enemySize
  {
    if edge == 0 then (along * cfg.width, -cfg.enemySize)
    else if edge == 1 then (cfg.width, along * cfg.height)
    else if edge == 2 then (along * cfg.width, cfg.height)
    else (-cfg.enemySize, along * cfg.height)
  }

  /** Along its border the spawn corner lies within the canvas span. */
  lemma PlaceWithinSpan(cfg: Config, edge: int, along: real)
    requires 0 <= edge < 4
    requires 0.0 <= along < 1.0
    ensures cfg.width > 0.0 && (edge == 0 || edge == 2) ==> 0.0 <= Place(cfg, edge, along).0 < cfg.width
    ensures cfg.height > 0.0 && (edge == 1 || edge == 3) ==> 0.0 <= Place(cfg, edge, along).1 < cfg.height
  {
    var p := Place(cfg, edge, along);
    if edge == 0 || edge == 2 {
      ScaleBelow(along, cfg.width, p.0);
    } else {
      ScaleBelow(along, cfg.height, p.1);
    }
  }

  datatype Kind = Maniac | Shooter | Rammer

  /** The type choice: maniac with the first test below 0.1; otherwise
      shooter with the second test below 0.5; otherwise rammer. The second
      test is not looked at for a maniac. */
  function ChooseKind(d: Draw): (k: Kind)
    ensures k == Maniac <==> d.maniac < 0.1
    ensures k == Shooter <==> !(d.maniac < 0.1) && d.shooter < 0.5
    ensures k == Rammer <==> !(d.maniac < 0.1) && !(d.shooter < 0.5)
  {
    if d.maniac < 0.1 then Maniac
    else if d.shooter < 0.5 then Shooter
    else Rammer
  }

  function TemplateOf(k: Kind, t: Templates): Enemy
  {
    match k
    case Maniac => t.maniac
    case Shooter => t.shooter
    case Rammer => t.rammer
  }

  /** One new enemy: `{ ...TEMPLATE, x, y }`. It is the chosen template with
      only its position replaced by the spawn corner. */
  function SpawnOne(cfg: Config, t: Templates, d: Draw): (e: Enemy)
    requires UnitDraw(d)
    ensures e == TemplateOf(ChooseKind(d), t).(x := e.x, y := e.y)
    ensures (e.x, e.y) == Place(cfg, EdgeOf(d.edge), d.along)
  {
    var p := Place(cfg, EdgeOf(d.edge), d.along);
    TemplateOf(ChooseKind(d), t).(x := p.0, y := p.1)
  }

  /** A spawned enemy is entirely off the canvas when its template is no
      larger than ENEMY_SIZE. On the top edge a taller template, such as a
      maniac larger than ENEMY_SIZE, reaches into the canvas: there the
      enemy overlaps the canvas exactly when it is taller than ENEMY_SIZE. */
  lemma SpawnedOffCanvas(cfg: Config, t: Templates, d: Draw, e: Enemy)
    requires UnitDraw(d)
    requires e == SpawnOne(cfg, t, d)
    ensures e.width <= cfg.enemySize && e.height <= cfg.enemySize ==>
              !Overlaps(EnemyBox(e), CanvasBox(cfg))
    ensures EdgeOf(d.edge) == 0 && cfg.width > 0.0 && cfg.height > 0.0 && cfg.enemySize >= 0.0
            && e.width > 0.0 ==>
              (Overlaps(EnemyBox(e), CanvasBox(cfg)) <==> e.height > cfg.enemySize)
  {
    PlaceWithinSpan(cfg, EdgeOf(d.edge), d.along);
  }

  /** `spawnEnemies`: ENEMY_SPAWN_RATE * waveNumber new enemies are pushed
      after the ones already there, the i-th built from the i-th draws. */
  method SpawnEnemies(enemies: seq<Enemy>, cfg: Config, wave: nat, t: Templates,
                      draws: nat -> Draw) returns (r: seq<Enemy>)
    requires forall i :: 0 <= i < cfg.spawnRate * wave ==> UnitDraw(draws(i))
    ensures |r| == |enemies| + cfg.spawnRate * wave
    ensures r[..|enemies|] == enemies
    ensures forall i :: 0 <= i < cfg.spawnRate * wave ==>
              r[|enemies| + i] == SpawnOne(cfg, t, draws(i))
  {
    var count := cfg.spawnRate * wave;
    r := enemies;
    var i := 0;
    while i < count
      invariant 0 <= i <= count
      invariant |r| == |enemies| + i
      invariant r[..|enemies|] == enemies
      invariant forall j :: 0 <= j < i ==> r[|enemies| + j] == SpawnOne(cfg, t, draws(j))
    {
      r := r + [SpawnOne(cfg, t, draws(i))];
      i := i + 1;
    }
  }
}

=== FILE: game_state.dfy ===
/**
 The game state of the multi-weapon variant of the shooter (game.js). The
 file reads constants, the weapon and the enemy templates defined elsewhere
 in the program; they enter here as a configuration record and parameters.
 */
module GameState {
  import opened Geometry
  import opened Seqs

  /** The values game.js reads but does not define: the canvas size,
      BULLET_SIZE, ENEMY_SIZE, DAMAGE_AMOUNT and ENEMY_SPAWN_RATE. */
  datatype Config = Config(
    width: real,
    height: real,
    bulletSize: real,
    enemySize: real,
    damageAmount: int,
    spawnRate: nat)

  datatype Player = Player(x: real, y: real, width: real, height: real, hp: int)

  /** A player bullet; `penetration` is the number of enemies a sniper bullet
      may still pass through. */
  datatype Bullet = Bullet(x: real, y: real, penetration: int)

  /** An enemy carries its own size and health, copied from its template. */
  datatype Enemy = Enemy(x: real, y: real, width: real, height: real, health: real)

  /** MANIAC_TEMPLATE, SHOOTER_TEMPLATE and RAMMER_TEMPLATE. */
  datatype Templates = Templates(maniac: Enemy, shooter: Enemy, rammer: Enemy)

  datatype World = World(
    player: Player,
    bullets: seq<Bullet>,
    enemies: seq<Enemy>,
    coins: int,
    gameOver: bool)

  function PlayerBox(p: Player): Box { Box(p.x, p.y, p.width, p.height) }

  function BulletBox(b: Bullet, cfg: Config): Box { Box(b.x, b.y, cfg.bulletSize, cfg.bulletSize) }

  function EnemyBox(e: Enemy): Box { Box(e.x, e.y, e.width, e.height) }

  function CanvasBox(cfg: Config): Box { Box(0.0, 0.0, cfg.width, cfg.height) }

  /** Every enemy in the array still has health left. */
  predicate Alive(es: seq<Enemy>)
  {
    forall i :: 0 <= i < |es| ==> es[i].health > 0.0
  }

  /** `a` is enemy `b` after some damage: the same place and size, and no
      more health. */
  predicate Hurt(a: Enemy, b: Enemy)
  {
    a == b.(health := a.health) && a.health <= b.health
  }

  /** `rs` is what is left of `es` once some enemies were removed and some
      others damaged: each remaining enemy is hurt from its own original
      enemy, and the remaining enemies keep their original order. */
  predicate Weakened(rs: seq<Enemy>, es: seq<Enemy>)
    decreases |es|
  {
    |rs| == 0 ||
    (|es| > 0 && ((Hurt(rs[0], es[0]) && Weakened(rs[1..], es[1..])) || Weakened(rs, es[1..])))
  }

  lemma {:induction false} WeakenedLength(rs: seq<Enemy>, es: seq<Enemy>)
    requires Weakened(rs, es)
    ensures |rs| <= |es|
    decreases |es|
  {
    if |rs| > 0 {
      if Hurt(rs[0], es[0]) && Weakened(rs[1..], es[1..]) {
        WeakenedLength(rs[1..], es[1..]);
      } else {
        WeakenedLength(rs, es[1..]);
      }
    }
  }

  /** Removing enemies without hurting any is a special case. */
  lemma {:induction false} SubsequenceWeakened(rs: seq<Enemy>, es: seq<Enemy>)
    requires IsSubsequence(rs, es)
    ensures Weakened(rs, es)
    decreases |es|
  {
    if |rs| > 0 {
      if rs[0] == es[0] && IsSubsequence(rs[1..], es[1..]) {
        SubsequenceWeakened(rs[1..], es[1..]);
      } else {
        SubsequenceWeakened(rs, es[1..]);
      }
    }
  }

  lemma {:induction false} WeakenedTransitive(xs: seq<Enemy>, ys: seq<Enemy>, zs: seq<Enemy>)
    requires Weakened(xs, ys) && Weakened(ys, zs)
    ensures Weakened(xs, zs)
    decreases |zs|
  {
    if |xs| > 0 {
      if Hurt(ys[0], zs[0]) && Weakened(ys[1..], zs[1..]) {
        if Hurt(xs[0], ys[0]) && Weakened(xs[1..], ys[1..]) {
          WeakenedTransitive(xs[1..], ys[1..], zs[1..]);
        } else {
          WeakenedTransitive(xs, ys[1..], zs[1..]);
        }
      } else {
        WeakenedTransitive(xs, ys, zs[1..]);
      }
    }
  }

  /** Damaging one enemy in place. */
  lemma {:induction false} WeakenedUpdate(es: seq<Enemy>, i: nat, v: Enemy)
    requires i < |es| && Hurt(v, es[i])
    ensures Weakened(es[i := v], es)
    decreases i
  {
    if i == 0 {
      SubsequenceReflexive(es[1..]);
      SubsequenceWeakened(es[1..], es[1..]);
      assert es[i := v][1..] == es[1..];
    } else {
      WeakenedUpdate(es[1..], i - 1, v);
      assert es[i := v][1..] == es[1..][i - 1 := v];
    }
  }

  /** When no enemy was removed, each one is hurt from the enemy at its own
      index. */
  lemma {:induction false} WeakenedSameLength(rs: seq<Enemy>, es: seq<Enemy>, k: nat)
    requires Weakened(rs, es) && |rs| == |es| && k < |rs|
    ensures Hurt(rs[k], es[k])
    decreases |es|
  {
    if Hurt(rs[0], es[0]) && Weakened(rs[1..], es[1..]) {
      if k > 0 {
        WeakenedSameLength(rs[1..], es[1..], k - 1);
      }
    } else {
      WeakenedLength(rs, es[1..]);
    }
  }

  /** Damage cannot be undone: once the enemies differ from the original
      ones, no further removal or damage brings the original array back. */
  lemma WeakenedStaysChanged(xs: seq<Enemy>, ys: seq<Enemy>, zs: seq<Enemy>)
    requires Weakened(xs, ys) && Weakened(ys, zs)
    ensures ys != zs ==> xs != zs
  {
    WeakenedLength(xs, ys);
    WeakenedLength(ys, zs);
    if ys != zs && |xs| == |zs| {
      assert !(forall k :: 0 <= k < |ys| ==> ys[k] == zs[k]);
      var k :| 0 <= k < |ys| && ys[k] != zs[k];
      WeakenedSameLength(ys, zs, k);
      WeakenedSameLength(xs, ys, k);
      assert xs[k].health < zs[k].health;
    }
  }

  /** Every remaining enemy is hurt from some original one. */
  lemma {:induction false} WeakenedMember(rs: seq<Enemy>, es: seq<Enemy>, k: nat)
    requires Weakened(rs, es) && k < |rs|
    ensures exists j :: 0 <= j < |es| && Hurt(rs[k], es[j])
    decreases |es|
  {
    if Hurt(rs[0], es[0]) && Weakened(rs[1..], es[1..]) {
      if k > 0 {
        WeakenedMember(rs[1..], es[1..], k - 1);
        var j :| 0 <= j < |es[1..]| && Hurt(rs[1..][k - 1], es[1..][j]);
        assert Hurt(rs[k], es[j + 1]);
      }
    } else {
      WeakenedMember(rs, es[1..], k);
      var j :| 0 <= j < |es[1..]| && Hurt(rs[k], es[1..][j]);
      assert Hurt(rs[k], es[j + 1]);
    }
  }
}

=== FILE: geometry.dfy ===
/**
 Axis-aligned boxes on the canvas and the overlap test that every collision
 check of the game uses. The canvas y axis grows downwards; a box is given by
 its top-left corner and its width and height.
 */
module Geometry {

  datatype Box = Box(x: real, y: real, w: real, h: real)

  /** The collision test: strict inequality on all four sides, so boxes that
      only share an edge or a corner do not collide. */
  predicate Overlaps(a: Box, b: Box)
  {
    a.x < b.x + b.w && a.x + a.w > b.x && a.y < b.y + b.h && a.y + a.h > b.y
  }

  /** The point (px, py) lies strictly inside the box. */
  predicate Inside(px: real, py: real, b: Box)
  {
    b.x < px < b.x + b.w && b.y < py < b.y + b.h
  }

  function Max(a: real, b: real): real { if a < b then b else a }

  function Min(a: real, b: real): real { if a < b then a else b }

  /** The test does not depend on which box is named first. */
  lemma OverlapsSymmetric(a: Box, b: Box)
    ensures Overlaps(a, b) <==> Overlaps(b, a)
  {}

  /** Boxes that touch along an edge (one's right side is the other's left
      side, or one's bottom is the other's top) do not collide. */
  lemma TouchingBoxesDoNotOverlap(a: Box, b: Box)
    requires a.x + a.w == b.x || b.x + b.w == a.x || a.y + a.h == b.y || b.y + b.h == a.y
    ensures !Overlaps(a, b)
  {}

  /** For boxes of positive size the strict test means exactly that some
      point lies strictly inside both boxes. */
  lemma OverlapsIffCommonPoint(a: Box, b: Box)
    requires a.w > 0.0 && a.h > 0.0 && b.w > 0.0 && b.h > 0.0
    ensures Overlaps(a, b) <==> exists px, py :: Inside(px, py, a) && Inside(px, py, b)
  {
    if Overlaps(a, b) {
      var px := (Max(a.x, b.x) + Min(a.x + a.w, b.x + b.w)) / 2.0;
      var py := (Max(a.y, b.y) + Min(a.y + a.h, b.y + b.h)) / 2.0;
      assert Inside(px, py, a) && Inside(px, py, b);
    }
  }

  /** A random draw `u` in [0, 1) scaled by a positive extent `w` lands in
      [0, w): `Math.random() * WIDTH` is a coordinate of the canvas. */
  lemma ScaleBelow(u: real, w: real, v: real)
    requires v == u * w
    ensures 0.0 <= u < 1.0 && w > 0.0 ==> 0.0 <= v < w
  {
    if 0.0 <= u < 1.0 && w > 0.0 {
      assert u * w < 1.0 * w;
    }
  }
}

=== FILE: school_bullets.dfy ===
/**
 Player bullets of gameschool.js: the per-frame advance, the off-screen cull,
 and the mouse-down shot behind its cooldown gate.
 */
module SchoolBullets {
  import opened Seqs
  import opened SchoolState

  function Advance(b: Bullet): Bullet
  {
    b.(x := b.x + b.dx, y := b.y + b.dy)
  }

  /** Every bullet moves by its own velocity; velocity and mark stay as they
      were, and the order of the array is kept. */
  function MoveBullets(bs: seq<Bullet>): (r: seq<Bullet>)
    ensures |r| == |bs|
    ensures forall i :: 0 <= i < |bs| ==>
              r[i].x == bs[i].x + bs[i].dx && r[i].y == bs[i].y + bs[i].dy
    ensures forall i :: 0 <= i < |bs| ==>
              r[i].dx == bs[i].dx && r[i].dy == bs[i].dy && r[i].toRemove == bs[i].toRemove
  {
    if |bs| == 0 then [] else [Advance(bs[0])] + MoveBullets(bs[1..])
  }

  /** The bullet's corner lies strictly inside the canvas. */
  predicate InBounds(b: Bullet, view: Viewport)
  {
    0.0 < b.x < view.width && 0.0 < b.y < view.height
  }

  /** The cull after moving: the survivors are exactly the in-bounds bullets,
      in their old order and with their multiplicity. */
  function CullBullets(bs: seq<Bullet>, view: Viewport): (r: seq<Bullet>)
    ensures forall b :: b in r ==> InBounds(b, view)
    ensures forall b :: b in bs && InBounds(b, view) ==> b in r
    ensures forall b :: InBounds(b, view) ==> multiset(r)[b] == multiset(bs)[b]
    ensures IsSubsequence(r, bs)
  {
    Filter(bs, b => InBounds(b, view))
  }

  /** The firing direction: cosine and sine of the angle from the player to
      the mouse, which the host computes with `atan2`, `cos` and `sin`. */
  datatype Aim = Aim(cos: real, sin: real)

  /** True when a click at time `now` passes the cooldown gate. */
  predicate CanFire(s: State, now: int)
  {
    now - s.lastFireTime > FIRE_RATE
  }

  /** The mouse-down handler. A shot is taken only when more than FIRE_RATE
      milliseconds passed since the last one; it then records `now` and
      appends one bullet centred on the player, moving at `bulletSpeed` along
      the aim. Otherwise nothing changes. The handler does not look at the
      game-over flag. */
  function Fire(s: State, now: int, aim: Aim): (r: State)
    ensures CanFire(s, now) ==>
              && |r.bullets| == |s.bullets| + 1
              && r.bullets[..|s.bullets|] == s.bullets
              && r.lastFireTime == now
    ensures CanFire(s, now) ==>
              var b := r.bullets[|s.bullets|];
              && b.x + BULLET_SIZE / 2.0 == s.player.x + PLAYER_SIZE / 2.0
              && b.y + BULLET_SIZE / 2.0 == s.player.y + PLAYER_SIZE / 2.0
              && b.dx == aim.cos * s.bulletSpeed
              && b.dy == aim.sin * s.bulletSpeed
              && !b.toRemove
    ensures !CanFire(s, now) ==> r == s
    ensures r == s.(bullets := r.bullets, lastFireTime := r.lastFireTime)
  {
    if CanFire(s, now) then
      var b := Bullet(s.player.x + PLAYER_SIZE / 2.0 - BULLET_SIZE / 2.0,
                      s.player.y + PLAYER_SIZE / 2.0 - BULLET_SIZE / 2.0,
                      aim.cos * s.bulletSpeed, aim.sin * s.bulletSpeed, false);
      s.(lastFireTime := now, bullets := s.bullets + [b])
    else
      s
  }

  /** Two clicks no more than FIRE_RATE apart add at most one bullet. */
  lemma ClicksWithinCooldownFireOnce(s: State, t1: int, t2: int, a1: Aim, a2: Aim)
    requires t2 - t1 <= FIRE_RATE
    ensures |Fire(Fire(s, t1, a1), t2, a2).bullets| <= |s.bullets| + 1
  {}
}

=== FILE: school_combat.dfy ===
/**
 Collision resolution of gameschool.js: every bullet against every enemy,
 then the marked bullets are dropped, then every enemy against the player.
 */
module SchoolCombat {
  import opened Geometry
  import opened Seqs
  import opened ForEachSplice
  import Contact
  import opened SchoolState

  /** The bullet-enemy overlap test of the bullet pass. */
  function HitBy(b: Bullet): Enemy -> bool
  {
    e => Overlaps(BulletBox(b), EnemyBox(e))
  }

  /** The bullet with its mark cleared: position and velocity only. */
  function Unmarked(b: Bullet): Bullet
  {
    b.(toRemove := false)
  }

  /** The running totals of the bullet pass: the enemy array, the score and
      the currency. */
  datatype Tally = Tally(enemies: seq<Enemy>, score: int, currency: int)

  /** The totals when the turn of bullet `j` comes. No bullet is removed
      during the pass, so the outer forEach visits the bullets in order, and
      each of bullets 0 .. j-1 has walked the enemy array with splice on
      every hit, each hit paying 10 score and 5 currency. So each enemy gone
      paid exactly 10 score and 5 currency, and no enemy appears that was not
      there at the start of the frame. */
  function TallyBefore(bs: seq<Bullet>, j: nat, es: seq<Enemy>, score: int, currency: int): (t: Tally)
    requires j <= |bs|
    ensures |t.enemies| <= |es|
    ensures t.score == score + 10 * (|es| - |t.enemies|)
    ensures t.currency == currency + 5 * (|es| - |t.enemies|)
    ensures forall e :: e in t.enemies ==> e in es
    decreases j
  {
    if j == 0 then
      Tally(es, score, currency)
    else
      var t := TallyBefore(bs, j - 1, es, score, currency);
      var sweep := Sweep(t.enemies, HitBy(bs[j - 1]));
      Tally(sweep.0, t.score + 10 * sweep.1, t.currency + 5 * sweep.1)
  }

  /** Bullet `b`'s turn over the enemies present: it gets the mark if it hit
      at least one of them. */
  function Mark(b: Bullet, present: seq<Enemy>): (r: Bullet)
    ensures Unmarked(r) == Unmarked(b)
    ensures r.toRemove <==> b.toRemove || exists e :: e in present && Overlaps(BulletBox(b), EnemyBox(e))
  {
    var sweep := Sweep(present, HitBy(b));
    SweepRemovesIffMatch(present, HitBy(b));
    assert sweep.1 > 0 <==> exists e :: e in present && Overlaps(BulletBox(b), EnemyBox(e)) by {
      if e :| e in present && Overlaps(BulletBox(b), EnemyBox(e)) {
        assert HitBy(b)(e);
      }
    }
    if sweep.1 > 0 then b.(toRemove := true) else b
  }

  /** What the bullet pass leaves behind. */
  datatype Volley = Volley(bullets: seq<Bullet>, enemies: seq<Enemy>, score: int, currency: int)

  /** The bullet pass. Bullets change only in their mark; a bullet carries
      the mark afterwards exactly when it carried it before or overlapped an
      enemy still present at its turn; each enemy gone paid exactly 10 score
      and 5 currency; the enemies left keep their order. */
  function ResolveHits(bs: seq<Bullet>, es: seq<Enemy>, score: int, currency: int): (r: Volley)
    ensures |r.bullets| == |bs|
    ensures forall j :: 0 <= j < |bs| ==> Unmarked(r.bullets[j]) == Unmarked(bs[j])
    ensures forall j :: 0 <= j < |bs| ==>
              (r.bullets[j].toRemove <==>
                 bs[j].toRemove ||
                 exists e :: e in TallyBefore(bs, j, es, score, currency).enemies &&
                             Overlaps(BulletBox(bs[j]), EnemyBox(e)))
    ensures |r.enemies| <= |es|
    ensures r.score == score + 10 * (|es| - |r.enemies|)
    ensures r.currency == currency + 5 * (|es| - |r.enemies|)
    ensures forall e :: e in r.enemies ==> e in es
    ensures IsSubsequence(r.enemies, es)
    ensures r.enemies == TallyBefore(bs, |bs|, es, score, currency).enemies
  {
    var t := TallyBefore(bs, |bs|, es, score, currency);
    TallySubsequence(bs, |bs|, es, score, currency);
    var marked := seq(|bs|, j requires 0 <= j < |bs| =>
                              Mark(bs[j], TallyBefore(bs, j, es, score, currency).enemies));
    Volley(marked, t.enemies, t.score, t.currency)
  }

  /** The enemy array only shrinks during the pass: an enemy present at a
      later bullet's turn was present at every earlier one. */
  lemma {:induction false} TallyShrinks(bs: seq<Bullet>, i: nat, j: nat, es: seq<Enemy>,
                                        score: int, currency: int, e: Enemy)
    requires i <= j <= |bs|
    requires e in TallyBefore(bs, j, es, score, currency).enemies
    ensures e in TallyBefore(bs, i, es, score, currency).enemies
    decreases j
  {
    if i < j {
      TallyStep(bs, j, es, score, currency);
      TallyShrinks(bs, i, j - 1, es, score, currency, e);
    }
  }

  lemma TallyStep(bs: seq<Bullet>, j: nat, es: seq<Enemy>, score: int, currency: int)
    requires 0 < j <= |bs|
    ensures TallyBefore(bs, j, es, score, currency).enemies
         == Sweep(TallyBefore(bs, j - 1, es, score, currency).enemies, HitBy(bs[j - 1])).0
  {}

  /** The enemies left at any turn keep their order from the frame. */
  lemma {:induction false} TallySubsequence(bs: seq<Bullet>, j: nat, es: seq<Enemy>,
                                            score: int, currency: int)
    requires j <= |bs|
    ensures IsSubsequence(TallyBefore(bs, j, es, score, currency).enemies, es)
    decreases j
  {
    if j == 0 {
      SubsequenceReflexive(es);
    } else {
      var t := TallyBefore(bs, j - 1, es, score, currency);
      TallySubsequence(bs, j - 1, es, score, currency);
      TallyStep(bs, j, es, score, currency);
      SweepSubsequence(t.enemies, HitBy(bs[j - 1]));
      SubsequenceTransitive(TallyBefore(bs, j, es, score, currency).enemies, t.enemies, es);
    }
  }

  /** In terms of the frame's enemies: a bullet is newly marked only if it
      overlaps some enemy of the frame. */
  lemma ResolveHitsMarksOnlyOnHit(bs: seq<Bullet>, es: seq<Enemy>, score: int, currency: int, j: nat)
    requires j < |bs|
    ensures ResolveHits(bs, es, score, currency).bullets[j].toRemove && !bs[j].toRemove ==>
              exists e :: e in es && Overlaps(BulletBox(bs[j]), EnemyBox(e))
  {
    if ResolveHits(bs, es, score, currency).bullets[j].toRemove && !bs[j].toRemove {
      var e :| e in TallyBefore(bs, j, es, score, currency).enemies && Overlaps(BulletBox(bs[j]), EnemyBox(e));
      TallyShrinks(bs, 0, j, es, score, currency, e);
    }
  }

  /** A bullet that overlaps an enemy still alive after the pass is
      marked: that enemy was present at the bullet's turn. */
  lemma ResolveHitsMarksSurvivorHits(bs: seq<Bullet>, es: seq<Enemy>, score: int, currency: int,
                                     j: nat, e: Enemy)
    requires j < |bs|
    ensures e in ResolveHits(bs, es, score, currency).enemies && Overlaps(BulletBox(bs[j]), EnemyBox(e)) ==>
              ResolveHits(bs, es, score, currency).bullets[j].toRemove
  {
    if e in ResolveHits(bs, es, score, currency).enemies {
      TallyShrinks(bs, j, |bs|, es, score, currency, e);
    }
  }

  /** An enemy no bullet overlaps survives the bullet pass, as often as it
      occurred. */
  lemma {:induction false} TallyKeepsUnhit(bs: seq<Bullet>, j: nat, es: seq<Enemy>,
                                           score: int, currency: int, e: Enemy)
    requires j <= |bs|
    requires forall i :: 0 <= i < |bs| ==> !Overlaps(BulletBox(bs[i]), EnemyBox(e))
    ensures multiset(TallyBefore(bs, j, es, score, currency).enemies)[e] == multiset(es)[e]
    decreases j
  {
    if j > 0 {
      var t := TallyBefore(bs, j - 1, es, score, currency);
      TallyKeepsUnhit(bs, j - 1, es, score, currency, e);
      assert !HitBy(bs[j - 1])(e);
      SweepKeepsMisses(t.enemies, HitBy(bs[j - 1]), e);
    }
  }

  /** The skip of the forEach-with-splice walk: a bullet lying over a pile of
      enemies removes only every other one of them, (n + 1) / 2 of n, and the
      others survive the frame although the bullet overlaps them. */
  lemma BulletOverPileKillsHalf(b: Bullet, es: seq<Enemy>, score: int, currency: int)
    requires forall j :: 0 <= j < |es| ==> Overlaps(BulletBox(b), EnemyBox(es[j]))
    ensures |es| - |ResolveHits([b], es, score, currency).enemies| == (|es| + 1) / 2
  {
    SweepOverAllHitsRemovesHalf(es, HitBy(b), 0);
    assert TallyBefore([b], 0, es, score, currency).enemies == es;
  }

  /** The filter after the bullet pass: the marked bullets go, the others
      stay in order. */
  function DropMarked(bs: seq<Bullet>): (r: seq<Bullet>)
    ensures forall b :: b in r ==> !b.toRemove
    ensures forall b :: b in bs && !b.toRemove ==> b in r
    ensures forall b: Bullet :: !b.toRemove ==> multiset(r)[b] == multiset(bs)[b]
    ensures IsSubsequence(r, bs)
  {
    Filter(bs, (b: Bullet) => !b.toRemove)
  }

  /** The enemy-player contact pass: each contact costs DAMAGE_AMOUNT hit
      points and removes the enemy; the game ends (endGame sets gameOver)
      exactly when some contact happened and the hit points ended at or below
      zero, or it had already ended. */
  function PlayerContacts(p: Player, es: seq<Enemy>, over: bool): (r: Contact.Outcome<Enemy>)
    ensures |r.enemies| + r.contacts == |es|
    ensures r.hp == p.hp - DAMAGE_AMOUNT * r.contacts
    ensures r.contacts > 0 <==> exists e :: e in es && Overlaps(PlayerBox(p), EnemyBox(e))
    ensures r.over <==> over || (r.contacts > 0 && r.hp <= 0)
    ensures forall e :: e in r.enemies ==> e in es
    ensures IsSubsequence(r.enemies, es)
  {
    Contact.ContactPass(PlayerBox(p), es, EnemyBox, DAMAGE_AMOUNT, p.hp, over)
  }
}

=== FILE: school_shop.dfy ===
/**
 The shop of gameschool.js: three upgrades, each bought with currency when
 enough is available.
 */
module SchoolShop {
  import opened SchoolState

  datatype Upgrade = HealthUpgrade | BulletSpeedUpgrade | PlayerSpeedUpgrade

  function Cost(u: Upgrade): int
  {
    match u
    case HealthUpgrade => 50
    case BulletSpeedUpgrade => 20
    case PlayerSpeedUpgrade => 30
  }

  function MinInt(a: int, b: int): int { if a < b then a else b }

  /** The `buy*Upgrade` handlers. A purchase goes through exactly when the
      currency covers the cost; it then takes exactly the cost, so currency
      never goes negative. Health refills 50 hit points but never past
      PLAYER_MAX_HP; the speed upgrades add 2. A refused purchase changes
      nothing, and a purchase touches only the currency and its own stat. */
  function Buy(s: State, u: Upgrade): (r: State)
    ensures s.currency >= Cost(u) ==> r.currency == s.currency - Cost(u)
    ensures s.currency < Cost(u) ==> r == s
    ensures s.currency >= 0 ==> r.currency >= 0
    ensures u == HealthUpgrade && s.currency >= Cost(u) ==>
              && r.player.hp <= PLAYER_MAX_HP
              && (s.player.hp + 50 <= PLAYER_MAX_HP ==> r.player.hp == s.player.hp + 50)
              && (s.player.hp + 50 > PLAYER_MAX_HP ==> r.player.hp == PLAYER_MAX_HP)
              && (s.player.hp <= PLAYER_MAX_HP ==> r.player.hp >= s.player.hp)
    ensures u == BulletSpeedUpgrade && s.currency >= Cost(u) ==> r.bulletSpeed == s.bulletSpeed + 2.0
    ensures u == PlayerSpeedUpgrade && s.currency >= Cost(u) ==> r.playerSpeed == s.playerSpeed + 2.0
    ensures u != HealthUpgrade ==> r.player == s.player
    ensures u != BulletSpeedUpgrade ==> r.bulletSpeed == s.bulletSpeed
    ensures u != PlayerSpeedUpgrade ==> r.playerSpeed == s.playerSpeed
    ensures r == s.(currency := r.currency, player := r.player,
                    bulletSpeed := r.bulletSpeed, playerSpeed := r.playerSpeed)
    ensures r.player == s.player.(hp := r.player.hp)
  {
    if s.currency < Cost(u) then s
    else
      var paid := s.(currency := s.currency - Cost(u));
      match u
      case HealthUpgrade =>
        paid.(player := s.player.(hp := MinInt(s.player.hp + 50, PLAYER_MAX_HP)))
      case BulletSpeedUpgrade => paid.(bulletSpeed := s.bulletSpeed + 2.0)
      case PlayerSpeedUpgrade => paid.(playerSpeed := s.playerSpeed + 2.0)
  }

  /** A run of purchases, one after another. */
  function BuyAll(s: State, us: seq<Upgrade>): State
    decreases |us|
  {
    if |us| == 0 then s else BuyAll(Buy(s, us[0]), us[1..])
  }

  /** Whatever the player clicks, currency never goes negative and never
      grows, and hit points never exceed PLAYER_MAX_HP once they start
      within it. */
  lemma {:induction false} BuyAllKeepsBounds(s: State, us: seq<Upgrade>)
    requires s.currency >= 0
    requires s.player.hp <= PLAYER_MAX_HP
    ensures var r := BuyAll(s, us);
            0 <= r.currency <= s.currency && r.player.hp <= PLAYER_MAX_HP
    decreases |us|
  {
    if |us| > 0 {
      BuyAllKeepsBounds(Buy(s, us[0]), us[1..]);
    }
  }
}

=== FILE: school_state.dfy ===
/**
 The game state of the single-file variant of the shooter (gameschool.js),
 gathered from the file's global variables into one immutable record.
 */
module SchoolState {
  import opened Geometry

  const PLAYER_SIZE: real := 32.0
  const BULLET_SIZE: real := 8.0
  const ENEMY_SIZE: real := 32.0
  const BASE_PLAYER_SPEED: real := 5.0
  const BASE_BULLET_SPEED: real := 8.0
  /** Minimum time between two shots, in milliseconds. */
  const FIRE_RATE: int := 200
  const PLAYER_MAX_HP: int := 100
  /** Hit points lost per enemy contact. */
  const DAMAGE_AMOUNT: int := 10
  const INITIAL_CURRENCY: int := 0
  const INITIAL_SPAWN_RATE: int := 3000
  const MIN_SPAWN_RATE: int := 1000

  /** The canvas size, taken from the window at start-up. */
  datatype Viewport = Viewport(width: real, height: real)

  datatype Player = Player(x: real, y: real, hp: int)

  /** A player bullet; `toRemove` is the mark the bullet-enemy pass sets. */
  datatype Bullet = Bullet(x: real, y: real, dx: real, dy: real, toRemove: bool)

  /** Enemies of this variant carry only a position; every one is
      ENEMY_SIZE square. */
  datatype Enemy = Enemy(x: real, y: real)

  datatype State = State(
    player: Player,
    bullets: seq<Bullet>,
    enemies: seq<Enemy>,
    lastFireTime: int,
    score: int,
    wave: nat,
    spawnRate: int,
    currency: int,
    bulletSpeed: real,
    playerSpeed: real,
    gameOver: bool)

  /** The state the page starts in: player centred with full hit points,
      no bullets or enemies, wave 0. */
  function Initial(view: Viewport): State
  {
    State(Player(view.width / 2.0, view.height / 2.0, PLAYER_MAX_HP), [], [], 0, 0, 0,
          INITIAL_SPAWN_RATE, INITIAL_CURRENCY, BASE_BULLET_SPEED, BASE_PLAYER_SPEED, false)
  }

  function PlayerBox(p: Player): Box { Box(p.x, p.y, PLAYER_SIZE, PLAYER_SIZE) }

  function BulletBox(b: Bullet): Box { Box(b.x, b.y, BULLET_SIZE, BULLET_SIZE) }

  function EnemyBox(e: Enemy): Box { Box(e.x, e.y, ENEMY_SIZE, ENEMY_SIZE) }
}

=== FILE: school_update.dfy ===
/**
 One animation frame of gameschool.js (`update`), and the run of frames,
 clicks and purchases that makes up a game.
 */
module SchoolUpdate {
  import opened Seqs
  import opened SchoolState
  import opened SchoolBullets
  import opened SchoolCombat
  import opened SchoolWaves
  import opened SchoolShop

  /** Which of the movement keys are held down. */
  datatype Keys = Keys(w: bool, s: bool, a: bool, d: bool)

  function Step(held: bool, speed: real): real
  {
    if held then speed else 0.0
  }

  /** The movement step: each held key moves the player by `speed` in its
      direction (w up, s down, a left, d right). There is no clamping to the
      canvas. Hit points are untouched. */
  function MovePlayer(p: Player, keys: Keys, speed: real): (r: Player)
    ensures r.x == p.x - Step(keys.a, speed) + Step(keys.d, speed)
    ensures r.y == p.y - Step(keys.w, speed) + Step(keys.s, speed)
    ensures r.hp == p.hp
  {
    var p1 := if keys.w then p.(y := p.y - speed) else p;
    var p2 := if keys.s then p1.(y := p1.y + speed) else p1;
    var p3 := if keys.a then p2.(x := p2.x - speed) else p2;
    if keys.d then p3.(x := p3.x + speed) else p3
  }

  /** Opposite keys held together cancel, and with no key held the player
      stays where it is. */
  lemma OppositeKeysCancel(p: Player, keys: Keys, speed: real)
    ensures keys.w == keys.s ==> MovePlayer(p, keys, speed).y == p.y
    ensures keys.a == keys.d ==> MovePlayer(p, keys, speed).x == p.x
  {}

  /** The homing step of every enemy towards the moved player. It divides by
      the distance to the player and is computed by the host. */
  type Homing = (Player, Enemy) -> Enemy

  function HomeAll(p: Player, es: seq<Enemy>, home: Homing): (r: seq<Enemy>)
    ensures |r| == |es|
    ensures forall i :: 0 <= i < |es| ==> r[i] == home(p, es[i])
  {
    seq(|es|, (i: int) requires 0 <= i < |es| => home(p, es[i]))
  }

  /** The bullet pass followed by the drop of the marked bullets, over
      bullets that are all on the canvas: the bullets left are still on the
      canvas and carry no mark, and each enemy killed paid 10 score and 5
      currency. */
  function Shootout(bs: seq<Bullet>, es: seq<Enemy>, score: int, currency: int,
                    view: Viewport): (r: Volley)
    requires forall b :: b in bs ==> InBounds(b, view)
    ensures forall b :: b in r.bullets ==> InBounds(b, view) && !b.toRemove
    ensures |r.bullets| <= |bs|
    ensures |r.enemies| <= |es|
    ensures r.score == score + 10 * (|es| - |r.enemies|)
    ensures r.currency == currency + 5 * (|es| - |r.enemies|)
  {
    var v := ResolveHits(bs, es, score, currency);
    var left := DropMarked(v.bullets);
    BulletsStayInBounds(bs, v.bullets, left, view);
    SubsequenceLength(left, v.bullets);
    v.(bullets := left)
  }

  /** What the combat of a frame did besides the new state: the number of
      enemies shot and the number that touched the player. */
  datatype Fight = Fight(state: State, kills: nat, contacts: nat)

  /** The frame up to the wave check, for a game not yet over: the player
      moves, bullets move and leave the canvas, enemies home in, the bullet
      pass runs and the marked bullets go, and the contact pass runs.

      Afterwards every bullet is on the canvas and carries no mark; each kill
      paid 10 score and 5 currency and each contact cost DAMAGE_AMOUNT hit
      points, both removing their enemy; the game ended exactly when there
      was a contact and the hit points are now at or below zero. */
  function Combat(s: State, view: Viewport, keys: Keys, home: Homing): (f: Fight)
    requires !s.gameOver
    ensures var r := f.state;
            && (forall b :: b in r.bullets ==> InBounds(b, view) && !b.toRemove)
            && |r.bullets| <= |s.bullets|
            && |r.enemies| + f.kills + f.contacts == |s.enemies|
            && r.score == s.score + 10 * f.kills
            && r.currency == s.currency + 5 * f.kills
            && r.player.hp == s.player.hp - DAMAGE_AMOUNT * f.contacts
            && (r.gameOver <==> f.contacts > 0 && r.player.hp <= 0)
            && r.player == MovePlayer(s.player, keys, s.playerSpeed).(hp := r.player.hp)
            && r.lastFireTime == s.lastFireTime && r.wave == s.wave && r.spawnRate == s.spawnRate
            && r.bulletSpeed == s.bulletSpeed && r.playerSpeed == s.playerSpeed
  {
    var p := MovePlayer(s.player, keys, s.playerSpeed);
    var moved := MoveBullets(s.bullets);
    var kept := CullBullets(moved, view);
    SubsequenceLength(kept, moved);
    var v := Shootout(kept, HomeAll(p, s.enemies, home), s.score, s.currency, view);
    var c := PlayerContacts(p, v.enemies, false);
    Fight(s.(player := p.(hp := c.hp), bullets := v.bullets, enemies := c.enemies,
             score := v.score, currency := v.currency, gameOver := c.over),
          |s.enemies| - |v.enemies|, c.contacts)
  }

  /** Score and currency grew by exactly what `kills` kills pay. */
  predicate Rewarded(s: State, r: State, kills: nat)
  {
    r.score == s.score + 10 * kills && r.currency == s.currency + 5 * kills
  }

  /** The hit points fell by exactly what `contacts` contacts cost. */
  predicate Damaged(s: State, r: State, contacts: nat)
  {
    r.player.hp == s.player.hp - DAMAGE_AMOUNT * contacts
  }

  /** One frame (`update`). Once the game is over nothing changes. Otherwise
      the combat of the frame runs and then the wave check.

      Afterwards every bullet is on the canvas and carries no mark; score and
      currency grew by 10 and 5 for each of at most as many kills as there
      were enemies; the hit points fell by DAMAGE_AMOUNT for each of at most
      as many contacts, and the game ended in this frame exactly when they fell and are now at or
      below zero; the wave advanced by at most one, and only with a full new
      batch of enemies. Cooldown and speeds are kept. */
  function Update(s: State, view: Viewport, keys: Keys, home: Homing,
                  draws: nat -> Draw): (r: State)
    ensures s.gameOver ==> r == s
    ensures !s.gameOver ==>
              && (forall b :: b in r.bullets ==> InBounds(b, view) && !b.toRemove)
              && |r.bullets| <= |s.bullets|
              && (exists kills: nat :: kills <= |s.enemies| && Rewarded(s, r, kills))
              && (exists contacts: nat :: contacts <= |s.enemies| && Damaged(s, r, contacts))
              && (r.gameOver <==> r.player.hp < s.player.hp && r.player.hp <= 0)
              && r.player == MovePlayer(s.player, keys, s.playerSpeed).(hp := r.player.hp)
              && (r.wave == s.wave || (r.wave == s.wave + 1 && |r.enemies| == WaveSize(r.wave)))
              && (r.wave == s.wave ==> 0 < |r.enemies| <= |s.enemies|)
              && (s.spawnRate >= MIN_SPAWN_RATE ==> r.spawnRate >= MIN_SPAWN_RATE)
    ensures r.lastFireTime == s.lastFireTime
    ensures r.bulletSpeed == s.bulletSpeed && r.playerSpeed == s.playerSpeed
  {
    if s.gameOver then s
    else
      var f := Combat(s, view, keys, home);
      var r := CheckWaveComplete(f.state, view, draws);
      assert Rewarded(s, r, f.kills);
      assert Damaged(s, r, f.contacts);
      ContactLoss(s.player.hp, r.player.hp, f.contacts);
      r
  }

  /** Marking leaves positions alone, so what the cull let through is still
      on the canvas after the marked bullets are dropped. */
  lemma BulletsStayInBounds(kept: seq<Bullet>, marked: seq<Bullet>, left: seq<Bullet>, view: Viewport)
    requires forall b :: b in kept ==> InBounds(b, view)
    requires |marked| == |kept|
    requires forall j :: 0 <= j < |kept| ==> Unmarked(marked[j]) == Unmarked(kept[j])
    requires forall b :: b in left ==> b in marked
    ensures forall b :: b in left ==> InBounds(b, view)
  {
    forall b | b in left
      ensures InBounds(b, view)
    {
      var j :| 0 <= j < |marked| && marked[j] == b;
      assert kept[j] in kept;
      assert Unmarked(b) == Unmarked(kept[j]);
    }
  }

  /** Hit points lost to `n` contacts fell exactly when there was a
      contact. */
  lemma ContactLoss(hp: int, hp': int, n: nat)
    requires hp' == hp - DAMAGE_AMOUNT * n
    ensures hp' <= hp
    ensures hp' < hp <==> n > 0
  {}

  /** What can happen to a game: a frame, a click on the canvas, or a click
      on one of the shop's buttons. */
  datatype Event =
    | Frame(keys: Keys, home: Homing, draws: nat -> Draw)
    | Click(now: int, aim: Aim)
    | Purchase(u: Upgrade)

  function Apply(s: State, view: Viewport, ev: Event): State
  {
    match ev
    case Frame(keys, home, draws) => Update(s, view, keys, home, draws)
    case Click(now, aim) => Fire(s, now, aim)
    case Purchase(u) => Buy(s, u)
  }

  function Run(s: State, view: Viewport, evs: seq<Event>): State
    decreases |evs|
  {
    if |evs| == 0 then s else Run(Apply(s, view, evs[0]), view, evs[1..])
  }

  /** The bounds a game keeps whatever happens: currency and score never go
      negative, hit points never exceed PLAYER_MAX_HP, and the spawn rate
      never falls below MIN_SPAWN_RATE. */
  predicate Sound(s: State)
  {
    && s.currency >= 0
    && s.score >= 0
    && s.player.hp <= PLAYER_MAX_HP
    && s.spawnRate >= MIN_SPAWN_RATE
  }

  lemma InitialSound(view: Viewport)
    ensures Sound(Initial(view))
  {}

  lemma ApplyKeepsSound(s: State, view: Viewport, ev: Event)
    requires Sound(s)
    ensures Sound(Apply(s, view, ev))
    ensures Apply(s, view, ev).wave >= s.wave
  {}

  /** Every reachable game is sound, and the wave number never decreases. */
  lemma {:induction false} RunKeepsSound(s: State, view: Viewport, evs: seq<Event>)
    requires Sound(s)
    ensures Sound(Run(s, view, evs))
    ensures Run(s, view, evs).wave >= s.wave
    decreases |evs|
  {
    if |evs| > 0 {
      ApplyKeepsSound(s, view, evs[0]);
      RunKeepsSound(Apply(s, view, evs[0]), view, evs[1..]);
    }
  }

  /** Once the game is over, frames change nothing. */
  lemma {:induction false} FramesAfterGameOverChangeNothing(s: State, view: Viewport, evs: seq<Event>)
    requires s.gameOver
    requires forall i :: 0 <= i < |evs| ==> evs[i].Frame?
    ensures Run(s, view, evs) == s
    decreases |evs|
  {
    if |evs| > 0 {
      FramesAfterGameOverChangeNothing(s, view, evs[1..]);
    }
  }
}

=== FILE: school_waves.dfy ===
/**
 Wave progression of gameschool.js: when the enemy array is empty the wave
 counter goes up, a fresh batch of enemies replaces the array, and the spawn
 rate is lowered towards its floor.
 */
module SchoolWaves {
  import opened Geometry
  import opened SchoolState

  /** The two `Math.random()` draws `createEnemy` takes for one enemy. */
  datatype Draw = Draw(u: real, v: real)

  predicate UnitDraw(d: Draw)
  {
    0.0 <= d.u < 1.0 && 0.0 <= d.v < 1.0
  }

  /** `createEnemy`: a random point of the canvas. */
  function CreateEnemy(view: Viewport, d: Draw): (e: Enemy)
    ensures UnitDraw(d) && view.width > 0.0 && view.height > 0.0 ==>
              0.0 <= e.x < view.width && 0.0 <= e.y < view.height
  {
    var x := d.u * view.width;
    var y := d.v * view.height;
    ScaleBelow(d.u, view.width, x);
    ScaleBelow(d.v, view.height, y);
    Enemy(x, y)
  }

  /** The number of enemies wave `wave` starts with. */
  function WaveSize(wave: nat): nat
  {
    5 + wave * 3
  }

  /** `spawnEnemies`: the array is replaced by WaveSize(wave) new enemies,
      the i-th created from the i-th pair of draws. */
  function SpawnEnemies(view: Viewport, wave: nat, draws: nat -> Draw): (r: seq<Enemy>)
    ensures |r| == WaveSize(wave)
    ensures forall i :: 0 <= i < |r| ==> r[i] == CreateEnemy(view, draws(i))
  {
    seq(WaveSize(wave), (i: int) requires 0 <= i => CreateEnemy(view, draws(i)))
  }

  /** The spawn-rate step of a completed wave: 100 ms less, but never below
      MIN_SPAWN_RATE. */
  function LowerSpawnRate(rate: int): (r: int)
    ensures r >= MIN_SPAWN_RATE
    ensures rate - 100 >= MIN_SPAWN_RATE ==> r == rate - 100
    ensures rate - 100 < MIN_SPAWN_RATE ==> r == MIN_SPAWN_RATE
    ensures r <= rate || rate < MIN_SPAWN_RATE
  {
    if MIN_SPAWN_RATE < rate - 100 then rate - 100 else MIN_SPAWN_RATE
  }

  /** `checkWaveComplete`. A wave completes exactly when the enemy array is
      empty; completing it moves to the next wave number, fills the array
      with that wave's batch and lowers the spawn rate. Nothing else
      changes, and nothing at all changes while enemies remain. The check
      does not look at the game-over flag. */
  function CheckWaveComplete(s: State, view: Viewport, draws: nat -> Draw): (r: State)
    ensures r.wave == s.wave + 1 <==> |s.enemies| == 0
    ensures |s.enemies| != 0 ==> r == s
    ensures |s.enemies| == 0 ==>
              && |r.enemies| == WaveSize(r.wave)
              && r.spawnRate >= MIN_SPAWN_RATE
              && (s.spawnRate - 100 >= MIN_SPAWN_RATE ==> r.spawnRate == s.spawnRate - 100)
              && (s.spawnRate - 100 < MIN_SPAWN_RATE ==> r.spawnRate == MIN_SPAWN_RATE)
    ensures r == s.(wave := r.wave, enemies := r.enemies, spawnRate := r.spawnRate)
  {
    if |s.enemies| == 0 then
      var wave := s.wave + 1;
      s.(wave := wave, enemies := SpawnEnemies(view, wave, draws), spawnRate := LowerSpawnRate(s.spawnRate))
    else
      s
  }

  /** The spawn rate after `n` completed waves. */
  function SpawnRateAfter(rate: int, n: nat): int
    decreases n
  {
    if n == 0 then rate else SpawnRateAfter(LowerSpawnRate(rate), n - 1)
  }

  /** From any rate at or above the floor, `n` completed waves take the rate
      down by 100 each until it reaches MIN_SPAWN_RATE, where it stays: from
      the initial 3000 ms the floor is reached at wave 20. */
  lemma {:induction false} SpawnRateAfterWaves(rate: int, n: nat)
    requires rate >= MIN_SPAWN_RATE
    ensures SpawnRateAfter(rate, n) == if rate - 100 * n >= MIN_SPAWN_RATE then rate - 100 * n else MIN_SPAWN_RATE
    decreases n
  {
    if n > 0 {
      SpawnRateAfterWaves(LowerSpawnRate(rate), n - 1);
    }
  }
}

=== FILE: seqs.dfy ===
/**
 Sequence operations the game performs on its entity arrays: `splice(i, 1)`,
 `filter`, and the order-preserving sub-sequence relation used to state that
 removals keep the survivors in their original order.
 */
module Seqs {

  /** `a` is obtained from `b` by deleting some elements, keeping the order of
      the rest. */
  predicate IsSubsequence<T(==)>(a: seq<T>, b: seq<T>)
    decreases |b|
  {
    |a| == 0 ||
    (|b| > 0 && ((a[0] == b[0] && IsSubsequence(a[1..], b[1..])) || IsSubsequence(a, b[1..])))
  }

  lemma {:induction false} SubsequenceReflexive<T>(a: seq<T>)
    ensures IsSubsequence(a, a)
    decreases |a|
  {
    if |a| > 0 {
      SubsequenceReflexive(a[1..]);
    }
  }

  lemma {:induction false} SubsequenceTransitive<T>(a: seq<T>, b: seq<T>, c: seq<T>)
    requires IsSubsequence(a, b) && IsSubsequence(b, c)
    ensures IsSubsequence(a, c)
    decreases |c|
  {
    if |a| > 0 {
      if b[0] == c[0] && IsSubsequence(b[1..], c[1..]) {
        if a[0] == b[0] && IsSubsequence(a[1..], b[1..]) {
          SubsequenceTransitive(a[1..], b[1..], c[1..]);
        } else {
          SubsequenceTransitive(a, b[1..], c[1..]);
        }
      } else {
        SubsequenceTransitive(a, b, c[1..]);
      }
    }
  }

  /** A sub-sequence is never longer than the sequence it is taken from. */
  lemma {:induction false} SubsequenceLength<T>(a: seq<T>, b: seq<T>)
    requires IsSubsequence(a, b)
    ensures |a| <= |b|
    decreases |b|
  {
    if |a| > 0 {
      if a[0] == b[0] && IsSubsequence(a[1..], b[1..]) {
        SubsequenceLength(a[1..], b[1..]);
      } else {
        SubsequenceLength(a, b[1..]);
      }
    }
  }

  /** JavaScript's `s.splice(i, 1)`: removes the element at index `i` when
      there is one and leaves the array alone otherwise. */
  function SpliceOne<T>(s: seq<T>, i: nat): (r: seq<T>)
    ensures i < |s| ==> |r| == |s| - 1
    ensures i < |s| ==> forall j :: 0 <= j < i ==> r[j] == s[j]
    ensures i < |s| ==> forall j :: i <= j < |r| ==> r[j] == s[j + 1]
    ensures i >= |s| ==> r == s
  {
    if i < |s| then s[..i] + s[i + 1..] else s
  }

  /** Splicing removes one occurrence of the element at `i` and nothing else. */
  lemma SpliceOneMultiset<T>(s: seq<T>, i: nat)
    requires i < |s|
    ensures multiset(SpliceOne(s, i)) == multiset(s) - multiset{s[i]}
  {
    assert s == s[..i] + [s[i]] + s[i + 1..];
  }

  /** Splicing keeps the other elements in order. */
  lemma {:induction false} SpliceOneSubsequence<T>(s: seq<T>, i: nat)
    requires i < |s|
    ensures IsSubsequence(SpliceOne(s, i), s)
    decreases i
  {
    if i == 0 {
      assert SpliceOne(s, 0) == s[1..];
      SubsequenceReflexive(s[1..]);
    } else {
      assert SpliceOne(s, i)[1..] == SpliceOne(s[1..], i - 1);
      SpliceOneSubsequence(s[1..], i - 1);
    }
  }

  /** The first `n` elements of `s`, or all of them when there are fewer,
      are the first elements of `r`. */
  predicate SamePrefix<T(==)>(s: seq<T>, r: seq<T>, n: nat)
  {
    var k := if n < |s| then n else |s|;
    k <= |r| && r[..k] == s[..k]
  }

  lemma SamePrefixTransitive<T>(s: seq<T>, t: seq<T>, r: seq<T>, n: nat, n': nat)
    requires SamePrefix(s, t, n) && SamePrefix(t, r, n') && n <= n'
    ensures SamePrefix(s, r, n)
  {
    var k := if n < |s| then n else |s|;
    var k' := if n' < |t| then n' else |t|;
    assert r[..k] == r[..k'][..k] == t[..k'][..k] == t[..k];
  }

  /** `c` calls of `splice(i, 1)` at the same index `i`. */
  function DropRun<T>(s: seq<T>, i: nat, c: nat): seq<T>
    decreases c
  {
    if c == 0 then s else DropRun(SpliceOne(s, i), i, c - 1)
  }

  /** Element by element: the run of up to `c` elements from `i` on is
      gone (fewer when the array ends first), the elements before it stay
      put and the later ones move down by the run's length; an index past
      the end changes nothing. */
  lemma {:induction false} DropRunElements<T>(s: seq<T>, i: nat, c: nat)
    ensures i >= |s| ==> DropRun(s, i, c) == s
    ensures i < |s| ==>
              var m := if i + c < |s| then i + c else |s|;
              var r := DropRun(s, i, c);
              && |r| == |s| - (m - i)
              && (forall j :: 0 <= j < i ==> r[j] == s[j])
              && (forall j :: i <= j < |r| ==> r[j] == s[j + (m - i)])
    decreases c
  {
    if c > 0 {
      var s' := SpliceOne(s, i);
      var r := DropRun(s, i, c);
      DropRunElements(s', i, c - 1);
      assert r == DropRun(s', i, c - 1);
      if i < |s| {
        var m := if i + c < |s| then i + c else |s|;
        if i < |s'| {
          var m' := if i + (c - 1) < |s'| then i + (c - 1) else |s'|;
          assert m' == m - 1;
          forall j | i <= j < |r|
            ensures r[j] == s[j + (m - i)]
          {
            assert r[j] == s'[j + (m' - i)];
          }
        } else {
          assert r == s' && m == |s|;
        }
      }
    }
  }

  /** One more splice at `i` removes one more element of the run. */
  lemma {:induction false} DropRunStep<T>(s: seq<T>, i: nat, c: nat)
    ensures SpliceOne(DropRun(s, i, c), i) == DropRun(s, i, c + 1)
    decreases c
  {
    if c > 0 {
      DropRunStep(SpliceOne(s, i), i, c - 1);
    }
  }

  /** A write to the first element of a non-empty run does not show once the
      run is removed. */
  lemma DropRunUpdate<T>(s: seq<T>, i: nat, v: T, c: nat)
    ensures i < |s| && c > 0 ==> DropRun(s[i := v], i, c) == DropRun(s, i, c)
  {
    if i < |s| && c > 0 {
      assert SpliceOne(s[i := v], i) == SpliceOne(s, i);
    }
  }

  /** Removing a run keeps the other elements in order. */
  lemma {:induction false} DropRunSubsequence<T>(s: seq<T>, i: nat, c: nat)
    ensures IsSubsequence(DropRun(s, i, c), s)
    decreases c
  {
    if c == 0 {
      SubsequenceReflexive(s);
    } else if i < |s| {
      DropRunSubsequence(SpliceOne(s, i), i, c - 1);
      SpliceOneSubsequence(s, i);
      SubsequenceTransitive(DropRun(s, i, c), SpliceOne(s, i), s);
    } else {
      DropRunSubsequence(s, i, c - 1);
    }
  }

  /** `Array.prototype.filter`: keeps, in order, exactly the elements that
      satisfy `p`, each as often as it occurs. */
  function Filter<T(==,!new)>(s: seq<T>, p: T -> bool): (r: seq<T>)
    ensures forall x :: multiset(r)[x] == if p(x) then multiset(s)[x] else 0
    ensures forall x :: x in r ==> p(x)
    ensures forall x :: x in s && p(x) ==> x in r
    ensures IsSubsequence(r, s)
    ensures |r| <= |s|
    decreases |s|
  {
    if |s| == 0 then []
    else
      var rest := Filter(s[1..], p);
      assert s == [s[0]] + s[1..];
      assert forall x :: x in rest <==> multiset(rest)[x] > 0;
      if p(s[0]) then
        assert ([s[0]] + rest)[1..] == rest;
        [s[0]] + rest
      else
        rest
  }
}
